=== FILE: README.md ===
# Peergos client core: write-back chunk cache and chunk-upload chain

This project models two sequential cores of the Peergos client in Dafny and
proves properties of the model.

**The write-back chunk cache (`CachingPeergosFS`).** FUSE reads and writes
are served from one cached chunk per path. A chunk is a buffer of
`Chunk.MAX_SIZE` bytes, held in an access-ordered `LinkedHashMap` with a
capacity (default 1).
- A request that straddles a chunk boundary is rejected.
- A request for another chunk of a cached path first syncs the old entry.
- Inserting a path into a full map syncs the least-recently-used entry and
  drops it.
- `flush` removes the path's entry, then syncs it.
- The size reported for a file is raised to the end of its cached dirty
  region.

The state is immutable: a path→entry map, the access order as a sequence,
and a log of the writes issued to the backing store. The backing store's
read is a function parameter (`Fetch`).

**The chunk-upload chain (`FileUploader`).**
- A file of `length` bytes is cut into `nchunks` chunks.
- Each chunk is read from the input stream, encrypted and erasure-coded
  into fragments, and the fragments are uploaded.
- Only after the fragment hashes are back is the chunk's metadata blob
  built and uploaded. Chunk *i* stores it at location `L_i`.
- Each blob carries the next location `L_{i+1}`, drawn at random while
  chunk *i* is processed and encrypted under chunk *i*'s key.
- `upload` folds over the chunk indices in order and completes with the
  original location.

Cryptography, erasure coding, the network and randomness are oracles
(`Crypto`, `Network`, `Entropy`). The uploader's externally visible
effects are recorded in an effect log: `StreamRead`, `FragmentsUploaded`
and `MetadataUploaded`, three per chunk. Encryption, location encryption
and random draws are pure oracle calls and leave no log record.

Java's arithmetic is written out in `JavaInts`:
- `/` and `%` truncate toward zero;
- `(int)` casts and `long` arithmetic wrap around.

`Chunk.MAX_SIZE` is defined outside the modelled files. It is a parameter
`m` of type `ChunkSize`, a positive Java `int`.

Behaviour of the code worth knowing, which the model follows:
- The last chunk's metadata also carries a pointer: `Optional.of` is used
  for every chunk, and it points at a location where nothing is stored.
- There is no short-read error. The count `readIntoArray` returns is
  ignored, so a stream shorter than the declared length leaves zero bytes
  in the chunk.
- `flush` removes the entry before syncing it. The ENOENT that `sync` can
  produce is discarded, so a failed write loses the entry instead of
  keeping it dirty.
- `sync` never resets `maxDirtyPos`.
- A chunk of a path that the backing store cannot find is not
  zero-filled. The entry constructor throws, and the model returns
  `MissingPath`.

Two places deliberately depart from the code, because the code is evidently
wrong there (see Findings): the intra-chunk offset of `read` and `write` is
the corrected `(int)(pos % MAX_SIZE)`, and the uploader's constructors
recombine length and offset with the corrected, masking formula. Both agree
with the code on the inputs listed under "## Left out".

Files: `outcomes.dfy`, `java_ints.dfy`, `chunk_addressing.dfy`,
`access_order.dfy`, `cache_entry.dfy`, `write_back_cache.dfy`,
`cache_properties.dfy`, `upload_arithmetic.dfy`, `uploader.dfy`,
`upload_chain.dfy`.

## Model

| member | source | states |
|---|---|---|
| JavaInts.Div | src/peergos/fuse/CachingPeergosFS.java:127-129 | Java's `long` division truncates toward zero: for a non-negative dividend the quotient is the floor, for a non-positive one the ceiling |
| JavaInts.Rem | src/peergos/fuse/CachingPeergosFS.java:130-132 | Java's `%` takes the sign of the dividend, with magnitude below the divisor |
| JavaInts.DivRemIdentity | src/peergos/fuse/CachingPeergosFS.java:127-132 | `(a / b) * b + a % b == a` for Java's truncating operators |
| JavaInts.ToInt32 | src/peergos/fuse/CachingPeergosFS.java:131 | the `(int)` cast yields an `int` congruent to its argument modulo 2^32, and the argument itself when it already fits an `int`; the same cast is applied at CachingPeergosFS.java:61 and 83 and FileUploader.java:68, 86 and 107 |
| JavaInts.ToInt32Unique | src/peergos/fuse/CachingPeergosFS.java:131 | the cast is the only `int` congruent to its argument modulo 2^32, so the two properties above determine it |
| JavaInts.ToInt64 | src/peergos/shared/user/fs/FileUploader.java:41 | `long` arithmetic yields a `long` congruent to the exact result modulo 2^64, and the exact result when it fits a `long` |
| JavaInts.ToInt64Unique | src/peergos/shared/user/fs/FileUploader.java:41 | the wrapped value is the only `long` congruent to the exact result modulo 2^64 |
| ChunkAddressing.AlignToChunkSize | src/peergos/fuse/CachingPeergosFS.java:127-129 | the aligned position is a non-negative multiple of MAX_SIZE; for `pos >= 0` it is the start of the chunk holding `pos`; below MAX_SIZE (including every negative position) it is 0 |
| ChunkAddressing.AlignToChunkSizeMatchesFormula | src/peergos/fuse/CachingPeergosFS.java:127-129 | for every position, the alignment equals the source formula `max(0, pos / MAX_SIZE) * MAX_SIZE` with truncating division |
| ChunkAddressing.IntraChunkOffset | src/peergos/fuse/CachingPeergosFS.java:130-132 | the corrected intra-chunk offset lies strictly between `-MAX_SIZE` and `MAX_SIZE`; for `pos >= 0` it is non-negative and `alignToChunkSize(pos) + offset == pos` |
| ChunkAddressing.IntraChunkOffsetAsWritten | src/peergos/fuse/CachingPeergosFS.java:130-132 | the as-written `(int) pos % MAX_SIZE` agrees with the corrected offset for every `pos` in `[0, 2^31)` |
| ChunkAddressing.IntraChunkOffsetAsWrittenGoesNegative | src/peergos/fuse/CachingPeergosFS.java:123-132 | the one-byte range at `2^32 - 1` passes the containment check, yet the as-written offset is -1 while the corrected one is non-negative |
| ChunkAddressing.ContainedInOneChunk | src/peergos/fuse/CachingPeergosFS.java:123-125 | a non-empty range from a non-negative start is contained exactly when it ends by the end of its first chunk; from a negative start, exactly when it ends by `MAX_SIZE` |
| ChunkAddressing.LastByteInFirstChunk | src/peergos/fuse/CachingPeergosFS.java:123-129 | the last byte of a non-empty range aligns to the same chunk as its first byte exactly when the range ends by that chunk's end |
| ChunkAddressing.ContainedIffFits | src/peergos/fuse/CachingPeergosFS.java:123-125 | for `offset >= 0` and `size >= 1`, `containedInOneChunk(offset, offset + size)` holds exactly when `intraChunkOffset(offset) + size <= MAX_SIZE` |
| ChunkAddressing.InBoundsWhenContained | src/peergos/fuse/CachingPeergosFS.java:55-60 | after the containment check passes at a non-negative offset, `ensureInBounds(intraChunkOffset(offset), size)` cannot throw |
| ChunkAddressing.EmptyRequestAtBoundaryRejected | src/peergos/fuse/CachingPeergosFS.java:123-125 | an empty request at a positive chunk boundary fails the containment check, because `end - 1` falls in the previous chunk |
| ChunkAddressing.AlignMonotone | src/peergos/fuse/CachingPeergosFS.java:127-129 | alignment never decreases as a non-negative position grows |
| ChunkAddressing.AlignOfOffsetInChunk | src/peergos/fuse/CachingPeergosFS.java:127-129 | every position inside the chunk starting at an aligned base aligns back to that base |
| AccessOrder.Without | src/peergos/fuse/CachingPeergosFS.java:34 | removing a key from the access order leaves exactly the other keys; it keeps them distinct and shortens the order by one when the key was present |
| AccessOrder.WithoutConcat | src/peergos/fuse/CachingPeergosFS.java:34 | removing a key from two concatenated stretches of the order removes it from each stretch and keeps the stretches in place, so the remaining keys keep their relative order |
| AccessOrder.WithoutAt | src/peergos/fuse/CachingPeergosFS.java:34 | in a distinct order, removing the key at position `i` leaves exactly the keys before it followed by the keys after it |
| AccessOrder.Touch | src/peergos/fuse/CachingPeergosFS.java:34 | an access to a present key puts it last, after the order with that key removed; the set of keys and, for a distinct order, the length are unchanged; an absent key changes nothing |
| AccessOrder.TouchAt | src/peergos/fuse/CachingPeergosFS.java:34 | an access to the key at position `i` of a distinct order yields the keys before it, then the keys after it, then the key itself, so the other keys keep their relative order and the head stays the least recently used of them |
| CacheEntries.NewEntry | src/peergos/fuse/CachingPeergosFS.java:141-151 | a new entry succeeds exactly when the store returns at most one chunk of bytes. It is clean (`maxDirtyPos == 0`), one chunk long, and holds the returned bytes followed by zeros. A missing path fails with MissingPath |
| CacheEntries.EntryRead | src/peergos/fuse/CachingPeergosFS.java:153-162 | the entry read succeeds exactly when `[off, off + len)` lies in the buffer, and then returns exactly those bytes |
| CacheEntries.EntryWrite | src/peergos/fuse/CachingPeergosFS.java:153-168 | the entry write succeeds exactly when the range fits. The range then holds the caller's bytes and every other byte is unchanged. `maxDirtyPos` becomes the larger of its old value and `off + len`, so it never decreases and stays within the chunk |
| CacheEntries.Sync | src/peergos/fuse/CachingPeergosFS.java:170-179 | a sync issues no backing write when the entry is clean. Otherwise it issues exactly one write of `data[0..maxDirtyPos)` at the entry's base offset |
| CacheEntries.EntryWriteThenRead | src/peergos/fuse/CachingPeergosFS.java:158-168 | reading back a range just written into an entry returns the written bytes |
| WriteBackCache.Empty | src/peergos/fuse/CachingPeergosFS.java:30-51 | the cache starts empty, and the empty cache satisfies the invariant |
| WriteBackCache.Get | src/peergos/fuse/CachingPeergosFS.java:58 | a lookup returns the path's entry if there is one, and a hit marks the path most recently used; nothing else changes |
| WriteBackCache.Remove | src/peergos/fuse/CachingPeergosFS.java:102 | after `remove` the path has no entry; other paths keep theirs, and the access order is the old one with the path taken out, the other paths in their old order |
| WriteBackCache.EvictEldest | src/peergos/fuse/CachingPeergosFS.java:36-43 | eviction syncs the least-recently-used entry (the head of the order), then drops it and only it; the order loses exactly its head |
| WriteBackCache.Insert | src/peergos/fuse/CachingPeergosFS.java:34-44 | inserting a new path keeps the map within capacity. Below capacity nothing is evicted. At capacity the least-recently-used entry is synced and evicted and the new entry stays. At capacity 0 the new entry itself is synced and evicted |
| WriteBackCache.InsertOrder | src/peergos/fuse/CachingPeergosFS.java:34-44 | after inserting a new path the order is the old order with the path last; at capacity the old head, the least recently used path, is gone as well; at capacity 0 the order is empty |
| WriteBackCache.Put | src/peergos/fuse/CachingPeergosFS.java:72 | `put` of a cached path replaces its entry with no eviction and no backing write, and moves the path to the most-recently-used end; a new path is inserted. Other paths' entries never change except by eviction. Afterwards the path, whenever it is in the map, holds the new entry, and with capacity > 0 it is always in the map |
| WriteBackCache.Locate | src/peergos/fuse/CachingPeergosFS.java:58-73 | a hit on the requested chunk returns the cached entry and changes no entry. An entry for another chunk is synced before anything else is written. The result is an entry for the requested chunk, and it is the one in the map |
| WriteBackCache.LocateFromStore | src/peergos/fuse/CachingPeergosFS.java:58-73 | anything but a hit on the requested chunk returns exactly what the entry constructor builds from the backing store. A chunk switch replaces the path's entry in place. A miss that fails to load changes nothing; one that loads inserts the entry as `Insert` does. A cached path ends up most recently used |
| WriteBackCache.Load | src/peergos/fuse/CachingPeergosFS.java:71-72 | loading returns exactly what the entry constructor builds from the backing store. When the constructor fails, with `MissingPath` or `LoadOverflow`, the cache is unchanged. Otherwise the new entry is put under the path: it is clean, one chunk long, at the requested base, and in the map whenever capacity > 0 |
| WriteBackCache.Read | src/peergos/fuse/CachingPeergosFS.java:53-74 | a straddling request fails and changes nothing. An admitted request at a non-negative offset never fails its bounds checks. A successful result there has the requested size, and while the path has an entry it is what that entry holds at the offset |
| WriteBackCache.Write | src/peergos/fuse/CachingPeergosFS.java:76-98 | a straddling request fails and changes nothing. An admitted write at a non-negative offset never fails its bounds checks and returns the size. With capacity > 0 the path's entry then holds the bytes, and its dirty mark covers them |
| WriteBackCache.WriteInto | src/peergos/fuse/CachingPeergosFS.java:163-168 | the entry's write succeeds exactly when the range fits and updates only that path's entry in the map. An entry already evicted takes the bytes outside the map |
| WriteBackCache.Flush | src/peergos/fuse/CachingPeergosFS.java:100-107 | after `flush` the path has no entry. Exactly its old entry's sync is logged, no other entry changes, the other paths keep their order, and an uncached path is a no-op |
| WriteBackCache.AnnotateSize | src/peergos/fuse/CachingPeergosFS.java:109-121 | the reported size is at least the persisted size and at least `offset + maxDirtyPos` of a cached entry, and is one of the two; without an entry it is the persisted size. The lookup moves a cached path to the most-recently-used end and otherwise leaves the order alone |
| CacheProperties.ReadHitKeepsCache | src/peergos/fuse/CachingPeergosFS.java:63-66 | a read hit on the cached chunk returns the requested number of bytes from the buffer, with no backing write and no change to any entry |
| CacheProperties.ChunkSwitchSyncsStaleEntry | src/peergos/fuse/CachingPeergosFS.java:63-97 | a read or write of another chunk of a cached path first logs exactly the stale entry's sync, and no eviction write follows |
| CacheProperties.WriteHitChangesOnlyRange | src/peergos/fuse/CachingPeergosFS.java:163-168 | a write hit returns its size, leaves every byte outside the written range unchanged, never lowers `maxDirtyPos`, and touches no other path or the backing store |
| CacheProperties.ReadServedBytes | src/peergos/fuse/CachingPeergosFS.java:158-162 | reading a range whose bytes the cached entry holds returns exactly those bytes and writes nothing to the backing store |
| CacheProperties.WriteThenRead | src/peergos/fuse/CachingPeergosFS.java:158-168 | writing bytes and reading the same range of the same path back, with capacity ≥ 1 and no flush in between, returns exactly those bytes and sends nothing to the backing store |
| CacheProperties.FlushPersistsDirtyBytes | src/peergos/fuse/CachingPeergosFS.java:170-179 | flushing an entry whose dirty prefix covers some bytes appends exactly one backing write, at the chunk's base offset, carrying those bytes at their intra-chunk offset |
| CacheProperties.WriteThenFlushPersists | src/peergos/fuse/CachingPeergosFS.java:100-107 | a successful write followed by `flush` appends exactly one backing write that carries the written bytes where they belong, and leaves no entry for the path |
| CacheProperties.FlushAfterReadWritesNothing | src/peergos/fuse/CachingPeergosFS.java:141-179 | an entry loaded by a read is clean, so flushing it writes nothing |
| CacheProperties.SecondPathEvictsFirst | src/peergos/fuse/CachingPeergosFS.java:20-44 | with the default capacity of one, reading a second path syncs and evicts the first path's entry and admits the second |
| CacheProperties.CapacityZeroDropsWrites | src/peergos/fuse/CachingPeergosFS.java:34-44 | with capacity 0 a write leaves the map empty and the backing store untouched: the new clean entry is evicted on insertion, and the write lands in the orphaned object |
| CacheProperties.CapacityZeroWriteSucceeds | src/peergos/fuse/CachingPeergosFS.java:93-97 | with capacity 0, an admitted write at a non-negative offset whose chunk loads still returns its size |
| CacheProperties.ReadMissReturnsStored | src/peergos/fuse/CachingPeergosFS.java:70-73 | a read of an uncached chunk returns the bytes of the range from the chunk the backing store holds, zero-padded past the end of the file |
| CacheProperties.WriteMissKeepsStoredBytes | src/peergos/fuse/CachingPeergosFS.java:93-97 | a write to an uncached chunk (capacity > 0) returns its size. The loaded chunk stays in the map with the written range holding the bytes, every other byte as stored, and the dirty mark at the end of the range |
| CacheProperties.WriteMissThenFlush | src/peergos/fuse/CachingPeergosFS.java:93-104 | flushing after such a write sends one backing write at the chunk's base: the stored bytes before the range, followed by the written bytes |
| CacheProperties.FlushAfterOneWrite | src/peergos/fuse/CachingPeergosFS.java:100-104 | flushing an entry whose buffer is the stored chunk with one range overwritten, and whose dirty mark is the range's end, sends exactly the stored bytes before the range followed by the written bytes, at the entry's base |
| CacheProperties.ReadMissFails | src/peergos/fuse/CachingPeergosFS.java:54-73 | an admitted read whose chunk is not cached and cannot be loaded fails with the load's error. For an uncached path the cache is unchanged. For a path cached at another chunk, the stale entry is synced first and stays in the map, now most recently used |
| CacheProperties.WriteMissFails | src/peergos/fuse/CachingPeergosFS.java:77-97 | the same for a write: it fails with the load's error, nothing is inserted or evicted, and the only backing write is the stale entry's sync on a chunk switch |
| UploadArithmetic.Split | src/peergos/shared/user/fs/FileUploader.java:68 | the `long` constructor's words `(int)(x >> 32)` and `(int) x` are the high word and the low 32 bits of `x` |
| UploadArithmetic.RecombineAsWritten | src/peergos/shared/user/fs/FileUploader.java:41-50 | the as-written recombination is congruent to `hi * 2^32 + lo` with `lo` signed |
| UploadArithmetic.Recombine | src/peergos/shared/user/fs/FileUploader.java:41-50 | the corrected recombination is congruent to `hi * 2^32 + (lo mod 2^32)` |
| UploadArithmetic.RecombineSplit | src/peergos/shared/user/fs/FileUploader.java:41-68 | the corrected recombination inverts the split for every `long` |
| UploadArithmetic.RecombineAsWrittenSplitIff | src/peergos/shared/user/fs/FileUploader.java:41-68 | the as-written recombination inverts the split exactly when the low word is non-negative as an `int` |
| UploadArithmetic.TwoGiBLengthTurnsNegative | src/peergos/shared/user/fs/FileUploader.java:41-68 | a 2^31-byte length splits into `(0, -2^31)`, which recombines as written to `-2^31` and correctly to `2^31` |
| UploadArithmetic.NChunks | src/peergos/shared/user/fs/FileUploader.java:53 | `nchunks` is 1 when `length <= 0`, and otherwise the least `n` with `length <= n * MAX_SIZE` |
| UploadArithmetic.ChunkLength | src/peergos/shared/user/fs/FileUploader.java:82-86 | chunk `i` is a full chunk unless the file ends inside it, in which case it is the rest of the file |
| UploadArithmetic.ChunkLengthInRange | src/peergos/shared/user/fs/FileUploader.java:82-86 | for `length > 0` every chunk size is in `(0, MAX_SIZE]`; all chunks but the last are full, and the last is the remainder |
| UploadArithmetic.CoveredByPrefix | src/peergos/shared/user/fs/FileUploader.java:82-86 | the first `k` chunks cover `k * MAX_SIZE` bytes until the last chunk, and then exactly `length` |
| UploadArithmetic.ChunkLengthsSumToLength | src/peergos/shared/user/fs/FileUploader.java:53-86 | the sizes of the `nchunks` chunks add up to the file length |
| UploadArithmetic.EmptyFileIsOneEmptyChunk | src/peergos/shared/user/fs/FileUploader.java:53-86 | an empty file is uploaded as one empty chunk |
| UploadArithmetic.ThreeChunkExample | src/peergos/shared/user/fs/FileUploader.java:53-86 | 2500 bytes in 1024-byte chunks are three chunks of 1024, 1024 and 452 bytes |
| Uploader.ReadInto | src/peergos/shared/user/fs/FileUploader.java:87-88 | a chunk read yields the stream's bytes from its position, padded with zeros past the end, and advances the stream by the chunk size |
| Uploader.NewUploader | src/peergos/shared/user/fs/FileUploader.java:34-63 | the constructor recombines length and offset from their words. `nchunks` is the chunk count of the length. Missing properties default to name, MIME type and length, and a missing base key to a random one |
| Uploader.NewUploaderFromLongs | src/peergos/shared/user/fs/FileUploader.java:65-70 | the `long` constructor keeps the given length and offset exactly, and its `nchunks` is the chunk count of that length |
| Uploader.UploadChunk | src/peergos/shared/user/fs/FileUploader.java:116-136 | fragments of the encrypted chunk are uploaded first. The metadata blob is uploaded only if that succeeds, at the chunk's location, and it records the returned fragment hashes and the next location encrypted under the chunk's key. A failed fragment upload stops before any metadata |
| Uploader.UploadChunkAt | src/peergos/shared/user/fs/FileUploader.java:72-97 | a negative chunk size fails before any effect. Otherwise the chunk's bytes are read first. Its metadata goes to `current`'s map key under the uploader's owner and writer, and the step completes with a freshly drawn location of that owner and writer |
| Uploader.Fold | src/peergos/shared/user/fs/FileUploader.java:107-109 | a successful fold over `i .. count - 1` performs exactly three effects per chunk; an empty range changes nothing |
| Uploader.Upload | src/peergos/shared/user/fs/FileUploader.java:99-114 | a successful upload completes with the original location whatever `nchunks` is, performs three effects per chunk, and with no chunks does nothing |
| Uploader.RunThenOne | src/peergos/shared/user/fs/FileUploader.java:107-109 | a run that succeeded over steps `i .. j - 1` extended by step `j` has the run's log followed by step `j`'s log, and step `j`'s result |
| Uploader.RunStaysFailed | src/peergos/shared/user/fs/FileUploader.java:107-109 | once a run has failed by step `k`, running on to any later `n` changes neither its log nor its error: no step after a failure starts |
| Uploader.FoldIsSteps | src/peergos/shared/user/fs/FileUploader.java:107-109 | the fold over the chunk indices is the run of the chunk step: the same log, success exactly when the run succeeds, the run's location on success and its error on failure |
| Uploader.FoldStopsAtFirstFailure | src/peergos/shared/user/fs/FileUploader.java:107-109 | when chunks `i .. j - 1` succeed and chunk `j` fails, the fold fails with chunk `j`'s error, and its log is the earlier chunks' effects followed by chunk `j`'s own, with nothing after |
| Uploader.UploadStopsAtFirstFailure | src/peergos/shared/user/fs/FileUploader.java:99-114 | the same for `upload` from chunk 0: the first failing chunk's error, after the effects of the chunks before it and that chunk's own |
| UploadChain.StepLogged | src/peergos/shared/user/fs/FileUploader.java:72-97 | on a reliable network chunk `k` is read, its fragments uploaded and its metadata stored at `L_k` with a pointer to `L_{k+1}`, and the fold moves on to `L_{k+1}` |
| UploadChain.FoldLogged | src/peergos/shared/user/fs/FileUploader.java:107-109 | on a reliable network the fold from chunk `i` logs every remaining chunk's three effects, in index order |
| UploadChain.UploadLogged | src/peergos/shared/user/fs/FileUploader.java:99-114 | on a reliable network `upload` returns the original location and logs chunks `0 .. nchunks - 1` in order. Each chunk's metadata is stored at `L_k` after its fragments, with the fragment hashes and a pointer to `L_{k+1}` |
| UploadChain.PointersLinkTheChain | src/peergos/shared/user/fs/FileUploader.java:122-129 | every chunk's pointer decrypts under that chunk's key to the location of the next chunk's metadata; the last chunk's pointer also exists |
| UploadChain.ChainHasOneOwnerAndWriter | src/peergos/shared/user/fs/FileUploader.java:91-93 | every metadata location has the uploading owner and the writer's public key hash |
| UploadChain.ChunkCarriesFileSlice | src/peergos/shared/user/fs/FileUploader.java:82-88 | reading a complete file from its start, chunk `k` holds exactly the file bytes `[k * MAX_SIZE, k * MAX_SIZE + size_k)` |
| UploadChain.NegativeLengthFailsFirst | src/peergos/shared/user/fs/FileUploader.java:82-87 | a negative length that fits an `int` makes the first chunk's array size negative, so the upload fails before any effect |

## Left out

- The `Syncher` thread (CachingPeergosFS.java:198-219): it is never started.
- `FileUploader.close()`: it only closes the reader, which is an in-memory sequence here.
- `CachingPeergosFS.close()`: it only calls `super.close()`. It syncs no dirty cache entry, so dirty bytes still cached at close are not written; PeergosFS is not part of this model.
- FUSE plumbing: JNR `Pointer` and `FuseFileInfo` become byte sequences.
- `super.flush`, `super.annotateAttributes`, `PeergosFS.read`/`write`/`getByPath` and `applyIfPresent`. PeergosFS is not part of this model. The backing read is the `Fetch` parameter, and a backing write is a `BackingWrite` log record.
- Whether a logged backing write succeeds: its ENOENT result is discarded by the source, so the log records attempts.
- `Paths.get(path).getParent()` for a root path, which throws in `sync`: paths are opaque strings here.
- Concurrency: `synchronized`, `Collections.synchronizedMap`, `CompletableFuture`, `Futures.reduceAll` run as sequential steps.
- Progress monitors, logging, timing and `LocalDateTime.now()`. A default `FileProperties` has no modification time.
- `Chunk`, `LocatedChunk`, `FileAccess.create`, `EncryptedChunkRetriever`, `SymmetricKey`, `Location.encrypt`, `generateFragments` and the network calls. These classes are not part of this model and appear as records and oracle functions. The sizes of random byte strings (24-byte nonces, 32-byte map keys) are not constrained.
- `Entropy`: each random draw is a function of the chunk index, not a position in one `SafeRandom` stream.
- `AsyncReader` is not part of this model. The stream is an in-memory byte sequence that returns every byte it has.
- The uploader's `offset` field is stored but never used by the upload, in the source as here.
- A negative `chunkCacheSize`: the capacity is a `nat`.
- AccessOrder.Without: its own contract gives membership, distinctness and length. That the remaining keys keep their relative order is stated by the lemmas `AccessOrder.WithoutConcat` and `AccessOrder.WithoutAt`, so that callers of `Without` do not carry it.
- AccessOrder.Touch: its own contract states the move to the end in terms of `Without`. The position-by-position statement that the other keys keep their order is the lemma `AccessOrder.TouchAt`.
- WriteBackCache.Insert: the resulting access order is stated by the lemma `WriteBackCache.InsertOrder`, so that callers of `Insert` do not carry it.
- WriteBackCache.Locate: what a miss or a chunk switch returns, stores and does to the order is stated by the lemma `WriteBackCache.LocateFromStore`, so that `read` and `write` do not carry it.
- WriteBackCache.Read: uses the corrected intra-chunk offset `Rem(offset, MAX_SIZE)` rather than the code's `(int) offset % MAX_SIZE`. The two agree for offsets in `[0, 2^31)` (`ChunkAddressing.IntraChunkOffsetAsWritten`). From `2^31` on, the code can fail its bounds check (offset `2^32 - 1` gives -1) or read a different byte of the buffer where the model reads the right one.
- WriteBackCache.Write: uses the corrected intra-chunk offset, as Read does. For offsets of `2^31` and above, the code can throw or write a different byte of the buffer.
- CacheProperties.ReadHitKeepsCache: stated for the model's corrected offset. It holds of the code only for offsets below `2^31`; at `2^32 - 1` the code's hit throws.
- CacheProperties.WriteHitChangesOnlyRange: the written range is placed at the corrected offset. It holds of the code only for offsets below `2^31`.
- CacheProperties.ReadServedBytes: relies on the corrected offset. It holds of the code only for offsets below `2^31`.
- CacheProperties.WriteThenRead: the round trip goes through the corrected offset. It is established for the code only for offsets below `2^31`.
- CacheProperties.WriteThenFlushPersists: the bytes land at the corrected offset. The placement matches the code only for offsets below `2^31`.
- CacheProperties.CapacityZeroWriteSucceeds: stated with the corrected intra-chunk offset. It holds of the code only for offsets below `2^31`.
- CacheProperties.ReadMissReturnsStored: the bytes are taken at the corrected offset. It holds of the code only for offsets below `2^31`.
- CacheProperties.WriteMissKeepsStoredBytes: the written range sits at the corrected offset. It holds of the code only for offsets below `2^31`.
- CacheProperties.WriteMissThenFlush: the flushed bytes are split at the corrected offset. It holds of the code only for offsets below `2^31`.
- Uploader.NewUploader: recombines length and offset with the corrected `UploadArithmetic.Recombine`, not line 41's sign-extending sum. The two agree exactly when the low word is non-negative (`UploadArithmetic.RecombineAsWrittenSplitIff`). Otherwise the code's length is `2^32` smaller; for a 2 GiB file it is `-2^31`, giving one chunk and a negative array size.
- Uploader.NewUploaderFromLongs: keeps length and offset exactly through the corrected recombination. The code keeps them only when `x mod 2^32 < 2^31`, and turns a 2 GiB length into `-2^31`.
- WriteBackCache.Read: does not model 64-bit wrap-around of `offset + size` in the containment check, because the positions are unbounded integers.
- WriteBackCache.Write: same as Read, no 64-bit wrap-around of `offset + size`.
- WriteBackCache.Read: at a negative offset (which FUSE never passes) only the containment and boundary results are stated.
- UploadArithmetic.NChunks: does not model 64-bit wrap-around of `length + MAX_SIZE - 1` (lengths within `MAX_SIZE` of `2^63`).
- UploadArithmetic.ChunkLength: `chunkIndex * MAX_SIZE` is not wrapped to 64 bits. The cast of `fileLength - position` to `int` is modelled.
- Uploader.Upload: the fold runs over `(int) nchunks` as in the source. The chain lemmas assume `nchunks < 2^31`, where the cast changes nothing.
- Uploader.Fold: its own contract covers success and the empty range. What a failing chunk does to the fold is the lemma `Uploader.FoldStopsAtFirstFailure`.
- Uploader.Upload: likewise, the failure case is the lemma `Uploader.UploadStopsAtFirstFailure`.
- UploadChain.UploadLogged: stated for a network on which every upload succeeds and a non-negative length. On failure, `Uploader.FoldStopsAtFirstFailure` and `Uploader.UploadStopsAtFirstFailure` state the outcome.
- UploadChain.PointersLinkTheChain: assumes a decryption oracle that inverts location encryption; the cipher itself is not modelled.
- UploadChain.NegativeLengthFailsFirst: covers lengths in `[-2^31, 0)`. Below that the `(int)` cast of the length can be positive, and the model then reads and uploads that many bytes, as the source does.

## Findings

| source | as written | input that shows it | evidently intended | confidence | as-written member | corrected member |
|---|---|---|---|---|---|---|
| src/peergos/fuse/CachingPeergosFS.java:130-132 | `(int) pos % Chunk.MAX_SIZE` casts the `long` position to `int` before taking the remainder | `read` or `write` of 1 byte at offset `2^32 - 1`, any MAX_SIZE ≥ 2: the containment check passes and the intra-chunk offset is -1 | `(int) (pos % Chunk.MAX_SIZE)`, an offset in `[0, MAX_SIZE)` for every non-negative position | high, not executed | ChunkAddressing.IntraChunkOffsetAsWritten (counterexample: ChunkAddressing.IntraChunkOffsetAsWrittenGoesNegative) | ChunkAddressing.IntraChunkOffset (with ChunkAddressing.InBoundsWhenContained) |
| src/peergos/shared/user/fs/FileUploader.java:41-50 | `lengthLow + ((lengthHi & 0xFFFFFFFFL) << 32)` sign-extends the low word, and the offset is recombined the same way | the `long` constructor with `length = 2^31` splits it into `(0, -2^31)` and recombines it to `-2^31` | `(lengthLow & 0xFFFFFFFFL) + ((lengthHi & 0xFFFFFFFFL) << 32)` | high, not executed | UploadArithmetic.RecombineAsWritten (counterexample: UploadArithmetic.TwoGiBLengthTurnsNegative; exact failure set: UploadArithmetic.RecombineAsWrittenSplitIff) | UploadArithmetic.Recombine (with UploadArithmetic.RecombineSplit) |

=== FILE: access_order.dfy ===
/**
 The access order of the cache's `LinkedHashMap`: a sequence of distinct
 keys, least recently used first, most recently used last.
 */
module AccessOrder {

  predicate Distinct<T(==)>(s: seq<T>)
  {
    forall i, j :: 0 <= i < j < |s| ==> s[i] != s[j]
  }

  /** `s` with `x` removed, the other keys keeping their relative order. */
  function Without<T(==, !new)>(s: seq<T>, x: T): (r: seq<T>)
    ensures x !in r
    ensures forall y :: y in r <==> y in s && y != x
    ensures x !in s ==> r == s
    ensures Distinct(s) ==> Distinct(r)
    ensures Distinct(s) && x in s ==> |r| == |s| - 1
  {
    if |s| == 0 then []
    else
      var rest := Without(s[1..], x);
      if s[0] == x then rest
      else
        assert forall i :: 1 <= i < |s| ==> s[i] in s[1..];
        assert Distinct(s) ==> s[0] !in rest;
        var r := [s[0]] + rest;
        assert forall j :: 1 <= j < |r| ==> r[j] == rest[j - 1];
        r
  }

  /** Removal commutes with concatenation: the keys on either side keep their order. */
  lemma {:induction false} WithoutConcat<T(!new)>(a: seq<T>, b: seq<T>, x: T)
    ensures Without(a + b, x) == Without(a, x) + Without(b, x)
  {
    if |a| > 0 {
      var ab := a + b;
      assert ab[0] == a[0] && ab[1..] == a[1..] + b;
      WithoutConcat(a[1..], b, x);
      if a[0] != x {
        assert Without(ab, x) == [a[0]] + Without(a[1..] + b, x);
        assert Without(a, x) == [a[0]] + Without(a[1..], x);
      }
    } else {
      assert a + b == b;
    }
  }

  /**
   In a distinct order, removing the key at position `i` leaves the keys
   before it and the keys after it, each in their original order.
   */
  lemma WithoutAt<T(!new)>(s: seq<T>, i: int)
    requires Distinct(s) && 0 <= i < |s|
    ensures Without(s, s[i]) == s[..i] + s[i + 1..]
  {
    OnlyAt(s, i);
    SplitAt(s, i);
    WithoutMiddle(s[..i], s[i], s[i + 1..]);
  }

  lemma SplitAt<T>(s: seq<T>, i: int)
    requires 0 <= i < |s|
    ensures s == s[..i] + [s[i]] + s[i + 1..]
  {
  }

  /** Removing a key that occurs once, between `a` and `b`, leaves `a` followed by `b`. */
  lemma WithoutMiddle<T(!new)>(a: seq<T>, x: T, b: seq<T>)
    requires x !in a && x !in b
    ensures Without(a + [x] + b, x) == a + b
  {
    WithoutConcat(a + [x], b, x);
    WithoutConcat(a, [x], x);
    WithoutSingleton(x);
    assert a + [] == a;
  }

  /** In a distinct sequence the key at position `i` occurs neither before nor after it. */
  lemma OnlyAt<T>(s: seq<T>, i: int)
    requires Distinct(s) && 0 <= i < |s|
    ensures s[i] !in s[..i] && s[i] !in s[i + 1..]
  {
    var a, b := s[..i], s[i + 1..];
    forall j | 0 <= j < |a| ensures a[j] != s[i] {
      assert a[j] == s[j];
    }
    forall j | 0 <= j < |b| ensures b[j] != s[i] {
      assert b[j] == s[i + 1 + j];
    }
  }

  lemma WithoutSingleton<T(!new)>(x: T)
    ensures Without([x], x) == []
  {
    assert [x][1..] == [];
  }

  /** An access to `x` moves it to the most-recently-used end. */
  function Touch<T(==, !new)>(s: seq<T>, x: T): (r: seq<T>)
    ensures forall y :: y in r <==> y in s
    ensures Distinct(s) ==> Distinct(r) && |r| == |s|
    ensures x in s ==> r[|r| - 1] == x && r[..|r| - 1] == Without(s, x)
    ensures x !in s ==> r == s
  {
    if x in s then Without(s, x) + [x] else s
  }

  /**
   An access to the key at position `i` of a distinct order: the keys before
   it, then the keys after it, then the key itself. The other keys keep their
   relative order, so the head is still the least recently used of them.
   */
  lemma TouchAt<T(!new)>(s: seq<T>, i: int)
    requires Distinct(s) && 0 <= i < |s|
    ensures Touch(s, s[i]) == s[..i] + s[i + 1..] + [s[i]]
  {
    WithoutAt(s, i);
  }

  /** Touching the key just touched changes nothing: it is already last. */
  lemma TouchTwice<T(!new)>(s: seq<T>, x: T)
    requires Distinct(s) && x in s
    ensures Touch(Touch(s, x), x) == Touch(s, x)
  {
    var t := Touch(s, x);
    TouchAt(t, |t| - 1);
    assert t[..|t| - 1] + t[|t|..] + [t[|t| - 1]] == t;
  }
}

=== FILE: cache_entry.dfy ===
/**
 One cached chunk of one file (`CachingPeergosFS.CacheEntry`): a
 chunk-sized buffer, the chunk's base offset in the file, and the
 high-water mark of bytes written to it since it was loaded.
 */
module CacheEntries {
  import opened Outcomes
  import opened JavaInts
  import opened ChunkAddressing

  type Path = string

  /** What a filesystem call on the cache can fail with. */
  datatype FsError =
    | StraddlesBoundary   // the request crosses a chunk boundary
    | MissingPath         // the backing store has no such file, or no data for it
    | OutOfChunk          // `ensureInBounds` rejected the range
    | IndexOutOfRange     // a negative index or length reached the buffer copy
    | LoadOverflow        // the backing store returned more than a chunk

  /**
   The backing store's `read(stat, length, offset)`, with the lookup of the
   path folded in: `None` when either fails.
   */
  type Fetch = (Path, int, int) -> Option<seq<Byte>>

  datatype CacheEntry = CacheEntry(path: Path, data: seq<Byte>, offset: int, maxDirtyPos: nat)

  /** One call of the backing store's write: these bytes, at this file offset. */
  datatype BackingWrite = BackingWrite(path: Path, offset: int, bytes: seq<Byte>)

  /** What every entry the cache creates satisfies. */
  predicate WellFormed(e: CacheEntry, m: ChunkSize)
  {
    && |e.data| == m
    && e.maxDirtyPos <= m
    && e.offset >= 0
    && e.offset % m == 0
  }

  function Zeros(n: nat): (r: seq<Byte>)
    ensures |r| == n && forall i :: 0 <= i < n ==> r[i] == 0
  {
    seq(n, _ => 0)
  }

  /**
   The constructor: a zero-filled buffer of one chunk, overwritten from the
   start with what the backing store holds for that chunk, and clean.
   */
  function NewEntry(fetch: Fetch, m: ChunkSize, path: Path, offset: int): (r: Result<CacheEntry, FsError>)
    ensures r.Ok? <==> fetch(path, m, offset).Some? && |fetch(path, m, offset).value| <= m
    ensures fetch(path, m, offset).None? ==> r == Err(MissingPath)
    ensures r.Ok? ==>
      var loaded := fetch(path, m, offset).value;
      && r.value.path == path && r.value.offset == offset
      && |r.value.data| == m && r.value.maxDirtyPos == 0
      && r.value.data[..|loaded|] == loaded
      && forall i :: |loaded| <= i < m ==> r.value.data[i] == 0
  {
    match fetch(path, m, offset)
    case None => Err(MissingPath)
    case Some(loaded) =>
      if |loaded| > m then Err(LoadOverflow)
      else Ok(CacheEntry(path, loaded + Zeros(m - |loaded|), offset, 0))
  }

  /** `ensureInBounds` followed by `pointer.put(0, data, offset, length)`. */
  function EntryRead(e: CacheEntry, off: int, len: int): (r: Result<seq<Byte>, FsError>)
    ensures r.Ok? <==> 0 <= off && 0 <= len && off + len <= |e.data|
    ensures r.Ok? ==> |r.value| == len && forall j :: 0 <= j < len ==> r.value[j] == e.data[off + j]
  {
    if off + len > |e.data| then Err(OutOfChunk)
    else if off < 0 || len < 0 then Err(IndexOutOfRange)
    else Ok(e.data[off..off + len])
  }

  /**
   `ensureInBounds` followed by `pointer.get(0, data, offset, length)`, which
   copies the first `len` bytes of the caller's buffer into the chunk, and the
   raise of the high-water mark.
   */
  function EntryWrite(e: CacheEntry, off: int, len: int, src: seq<Byte>): (r: Result<CacheEntry, FsError>)
    requires len <= |src|
    ensures r.Ok? <==> 0 <= off && 0 <= len && off + len <= |e.data|
    ensures r.Ok? ==>
      && r.value.path == e.path && r.value.offset == e.offset
      && |r.value.data| == |e.data|
      && r.value.data[off..off + len] == src[..len]
      && (forall j :: 0 <= j < |e.data| && !(off <= j < off + len) ==> r.value.data[j] == e.data[j])
      && r.value.maxDirtyPos >= e.maxDirtyPos
      && r.value.maxDirtyPos >= off + len
      && (r.value.maxDirtyPos == e.maxDirtyPos || r.value.maxDirtyPos == off + len)
    ensures r.Ok? && e.maxDirtyPos <= |e.data| ==> r.value.maxDirtyPos <= |e.data|
  {
    if off + len > |e.data| then Err(OutOfChunk)
    else if off < 0 || len < 0 then Err(IndexOutOfRange)
    else
      var data := e.data[..off] + src[..len] + e.data[off + len..];
      Ok(e.(data := data, maxDirtyPos := Max(e.maxDirtyPos, off + len)))
  }

  /**
   `sync`: nothing when the entry is clean; otherwise one backing write of the
   dirty prefix `data[0..maxDirtyPos)` at the chunk's base offset. The entry
   itself is not changed: the high-water mark is never reset.
   */
  function Sync(e: CacheEntry): (r: seq<BackingWrite>)
    requires e.maxDirtyPos <= |e.data|
    ensures |r| <= 1
    ensures |r| == 0 <==> e.maxDirtyPos == 0
    ensures |r| == 1 ==>
      && r[0].path == e.path && r[0].offset == e.offset
      && |r[0].bytes| == e.maxDirtyPos
      && forall j :: 0 <= j < e.maxDirtyPos ==> r[0].bytes[j] == e.data[j]
  {
    if e.maxDirtyPos == 0 then []
    else [BackingWrite(e.path, e.offset, e.data[..e.maxDirtyPos])]
  }

  /** Reading back what was just written into the same entry returns exactly those bytes. */
  lemma EntryWriteThenRead(e: CacheEntry, off: int, src: seq<Byte>)
    requires EntryWrite(e, off, |src|, src).Ok?
    ensures EntryRead(EntryWrite(e, off, |src|, src).value, off, |src|) == Ok(src)
  {
    var e' := EntryWrite(e, off, |src|, src).value;
    assert e'.data[off..off + |src|] == src;
  }
}

=== FILE: cache_properties.dfy ===
/**
 Properties of the write-back cache that relate several calls: reading back
 a write, what a chunk switch and a flush send to the backing store, and LRU
 eviction at the default capacity.
 */
module CacheProperties {
  import opened Outcomes
  import opened JavaInts
  import opened ChunkAddressing
  import opened CacheEntries
  import opened WriteBackCache
  import opened AccessOrder

  /** A hit on the cached chunk answers from the buffer and changes nothing but the access order. */
  lemma ReadHitKeepsCache(cfg: Config, c: Cache, p: Path, size: nat, offset: int)
    requires Valid(cfg, c) && Admitted(cfg, offset, size) && offset >= 0
    requires p in c.entries && c.entries[p].offset == AlignToChunkSize(offset, cfg.chunk)
    ensures var r := Read(cfg, c, p, size, offset);
      && r.cache.entries == c.entries && r.cache.log == c.log
      && r.result.Ok? && |r.result.value| == size
      && Serves(cfg, c.entries[p], offset, r.result.value)
  {
  }

  /**
   A request for another chunk of a cached path syncs the old entry before
   anything else reaches the backing store, and evicts nothing: the map
   keeps a single entry per path.
   */
  lemma ChunkSwitchSyncsStaleEntry(cfg: Config, c: Cache, p: Path, bytes: seq<Byte>, offset: int)
    requires Valid(cfg, c) && p in c.entries
    requires c.entries[p].offset != AlignToChunkSize(offset, cfg.chunk)
    ensures Admitted(cfg, offset, |bytes|) ==>
      Read(cfg, c, p, |bytes|, offset).cache.log == c.log + Sync(c.entries[p])
    ensures Admitted(cfg, offset, |bytes|) ==>
      Write(cfg, c, p, bytes, offset).cache.log == c.log + Sync(c.entries[p])
  {
  }

  /** A write to the cached chunk changes only the written bytes, and nothing reaches the backing store. */
  lemma WriteHitChangesOnlyRange(cfg: Config, c: Cache, p: Path, bytes: seq<Byte>, offset: int)
    requires Valid(cfg, c) && offset >= 0 && Admitted(cfg, offset, |bytes|)
    requires p in c.entries && c.entries[p].offset == AlignToChunkSize(offset, cfg.chunk)
    ensures var r := Write(cfg, c, p, bytes, offset);
      var off := IntraChunkOffset(offset, cfg.chunk);
      && r.result == Ok(|bytes|) && r.cache.log == c.log && p in r.cache.entries
      && r.cache.entries[p].maxDirtyPos >= c.entries[p].maxDirtyPos
      && (forall j :: 0 <= j < cfg.chunk && !(off <= j < off + |bytes|) ==>
            r.cache.entries[p].data[j] == c.entries[p].data[j])
      && (forall q :: q in c.entries && q != p ==> q in r.cache.entries && r.cache.entries[q] == c.entries[q])
  {
    var off := IntraChunkOffset(offset, cfg.chunk);
    InBoundsWhenContained(offset, |bytes|, cfg.chunk);
    var e := c.entries[p];
    assert EntryWrite(e, off, |bytes|, bytes).Ok?;
  }

  /** Reading a range whose bytes the cached entry already holds returns exactly those bytes. */
  lemma ReadServedBytes(cfg: Config, c: Cache, p: Path, bytes: seq<Byte>, offset: int)
    requires Valid(cfg, c) && offset >= 0 && Admitted(cfg, offset, |bytes|)
    requires p in c.entries && Serves(cfg, c.entries[p], offset, bytes)
    ensures Read(cfg, c, p, |bytes|, offset).result == Ok(bytes)
    ensures Read(cfg, c, p, |bytes|, offset).cache.log == c.log
  {
    ReadHitKeepsCache(cfg, c, p, |bytes|, offset);
    ServesUnique(cfg, c.entries[p], offset, bytes, Read(cfg, c, p, |bytes|, offset).result.value);
  }

  /** An entry serves at most one byte sequence of each length at an offset. */
  lemma ServesUnique(cfg: Config, e: CacheEntry, offset: int, a: seq<Byte>, b: seq<Byte>)
    requires Serves(cfg, e, offset, a) && Serves(cfg, e, offset, b) && |a| == |b|
    ensures a == b
  {
  }

  /**
   Writing bytes and then reading the same range of the same path, with no
   flush or eviction in between, returns exactly those bytes and sends
   nothing to the backing store.
   */
  lemma WriteThenRead(cfg: Config, c: Cache, p: Path, bytes: seq<Byte>, offset: int)
    requires Valid(cfg, c) && cfg.capacity >= 1 && offset >= 0
    requires Write(cfg, c, p, bytes, offset).result.Ok?
    ensures var w := Write(cfg, c, p, bytes, offset).cache;
      && Read(cfg, w, p, |bytes|, offset).result == Ok(bytes)
      && Read(cfg, w, p, |bytes|, offset).cache.log == w.log
  {
    var w := Write(cfg, c, p, bytes, offset).cache;
    assert Admitted(cfg, offset, |bytes|);
    ReadServedBytes(cfg, w, p, bytes, offset);
  }

  /**
   Flushing after a write sends one backing write: the chunk's dirty prefix
   at the chunk's base offset, with the written bytes at their place in it.
   */
  lemma WriteThenFlushPersists(cfg: Config, c: Cache, p: Path, bytes: seq<Byte>, offset: int)
    requires Valid(cfg, c) && cfg.capacity >= 1 && offset >= 0 && |bytes| >= 1
    requires Write(cfg, c, p, bytes, offset).result.Ok?
    ensures var w := Write(cfg, c, p, bytes, offset).cache;
      var f := Flush(cfg, w, p);
      && p !in f.entries
      && |f.log| == |w.log| + 1 && f.log[..|w.log|] == w.log
      && Persists(cfg, f.log[|w.log|], p, offset, bytes)
  {
    var w := Write(cfg, c, p, bytes, offset).cache;
    FlushPersistsDirtyBytes(cfg, w, p, bytes, offset);
  }

  /** A backing write for path `p` at the chunk of `offset` that carries `bytes` at the intra-chunk offset. */
  predicate Persists(cfg: Config, w: BackingWrite, p: Path, offset: int, bytes: seq<Byte>)
  {
    var off := IntraChunkOffset(offset, cfg.chunk);
    && w.path == p
    && w.offset == AlignToChunkSize(offset, cfg.chunk)
    && 0 <= off && off + |bytes| <= |w.bytes|
    && w.bytes[off..off + |bytes|] == bytes
  }

  /** Flushing an entry whose dirty prefix covers some bytes sends exactly one write, carrying them. */
  lemma FlushPersistsDirtyBytes(cfg: Config, w: Cache, p: Path, bytes: seq<Byte>, offset: int)
    requires Valid(cfg, w) && p in w.entries && |bytes| >= 1
    requires Serves(cfg, w.entries[p], offset, bytes)
    requires w.entries[p].maxDirtyPos >= IntraChunkOffset(offset, cfg.chunk) + |bytes|
    ensures var f := Flush(cfg, w, p);
      && p !in f.entries
      && |f.log| == |w.log| + 1 && f.log[..|w.log|] == w.log
      && Persists(cfg, f.log[|w.log|], p, offset, bytes)
  {
    var e := w.entries[p];
    var off := IntraChunkOffset(offset, cfg.chunk);
    var s := Sync(e);
    assert |s| == 1;
    var f := Flush(cfg, w, p);
    assert f.log == w.log + s;
    assert f.log[|w.log|] == s[0];
    PrefixSlice(s[0].bytes, e.data, off, off + |bytes|);
  }

  lemma PrefixSlice(x: seq<Byte>, d: seq<Byte>, lo: int, hi: int)
    requires 0 <= lo <= hi <= |x| <= |d|
    requires forall j :: 0 <= j < |x| ==> x[j] == d[j]
    ensures x[lo..hi] == d[lo..hi]
  {
  }

  /** Reading an uncached path loads a clean entry: flushing it sends nothing to the backing store. */
  lemma FlushAfterReadWritesNothing(cfg: Config, c: Cache, p: Path, size: nat, offset: int)
    requires Valid(cfg, c) && p !in c.entries
    ensures var r := Read(cfg, c, p, size, offset).cache;
      Flush(cfg, r, p).log == r.log
  {
    var r := Read(cfg, c, p, size, offset).cache;
    if p in r.entries {
      assert Admitted(cfg, offset, size);
      var located := Locate(cfg, c, p, AlignToChunkSize(offset, cfg.chunk));
      assert located.cache == r;
      assert r.entries[p].maxDirtyPos == 0;
    }
  }

  /**
   At the default capacity of one, touching a second path syncs the cached
   entry of the first and drops it while admitting the second.
   */
  lemma SecondPathEvictsFirst(cfg: Config, c: Cache, p: Path, q: Path, size: nat, offset: int)
    requires Valid(cfg, c) && cfg.capacity == DefaultCapacity
    requires p in c.entries && q != p
    requires Admitted(cfg, offset, size)
    requires NewEntry(cfg.fetch, cfg.chunk, q, AlignToChunkSize(offset, cfg.chunk)).Ok?
    ensures var r := Read(cfg, c, q, size, offset).cache;
      && p !in r.entries && q in r.entries
      && r.log == c.log + Sync(c.entries[p])
  {
    assert c.order[0] in c.entries;
    assert c.order[0] == p;
    assert q !in c.entries;
    var base := AlignToChunkSize(offset, cfg.chunk);
    var loaded := NewEntry(cfg.fetch, cfg.chunk, q, base).value;
    assert Read(cfg, c, q, size, offset).cache == Locate(cfg, c, q, base).cache;
    assert Locate(cfg, c, q, base).cache == Insert(cfg, c, q, loaded);
  }

  /**
   With a capacity of zero the entry created by a write is evicted the moment
   it is inserted, while still clean: its bytes reach neither the map nor
   the backing store.
   */
  lemma CapacityZeroDropsWrites(cfg: Config, c: Cache, p: Path, bytes: seq<Byte>, offset: int)
    requires Valid(cfg, c) && cfg.capacity == 0
    ensures var r := Write(cfg, c, p, bytes, offset);
      && r.cache.entries == map[] && r.cache.log == c.log
  {
    assert c.entries == map[];
  }

  /** With a capacity of zero an admitted write whose chunk loads still reports success. */
  lemma CapacityZeroWriteSucceeds(cfg: Config, c: Cache, p: Path, bytes: seq<Byte>, offset: int)
    requires Valid(cfg, c) && cfg.capacity == 0
    requires Admitted(cfg, offset, |bytes|) && offset >= 0
    requires NewEntry(cfg.fetch, cfg.chunk, p, AlignToChunkSize(offset, cfg.chunk)).Ok?
    ensures Write(cfg, c, p, bytes, offset).result == Ok(|bytes|)
  {
    var base := AlignToChunkSize(offset, cfg.chunk);
    InBoundsWhenContained(offset, |bytes|, cfg.chunk);
    LocateFromStore(cfg, c, p, base);
    var located := Locate(cfg, c, p, base);
    assert located.result.Ok?;
    var off := IntraChunkOffset(offset, cfg.chunk);
    assert ToInt32(|bytes|) == |bytes|;
    assert Write(cfg, c, p, bytes, offset) == WriteInto(cfg, located.cache, p, located.result.value, off, |bytes|, bytes);
  }

  /**
   A read that misses the cached chunk, because the path is not cached or its
   entry holds another chunk, returns the bytes the backing store holds for
   the range: the loaded chunk, zero-padded past the end of the file.
   */
  lemma ReadMissReturnsStored(cfg: Config, c: Cache, p: Path, size: nat, offset: int)
    requires Valid(cfg, c) && offset >= 0 && Admitted(cfg, offset, size)
    requires !(p in c.entries && c.entries[p].offset == AlignToChunkSize(offset, cfg.chunk))
    requires NewEntry(cfg.fetch, cfg.chunk, p, AlignToChunkSize(offset, cfg.chunk)).Ok?
    ensures var stored := NewEntry(cfg.fetch, cfg.chunk, p, AlignToChunkSize(offset, cfg.chunk)).value.data;
      var off := IntraChunkOffset(offset, cfg.chunk);
      && 0 <= off && off + size <= |stored|
      && Read(cfg, c, p, size, offset).result == Ok(stored[off..off + size])
  {
    var base := AlignToChunkSize(offset, cfg.chunk);
    InBoundsWhenContained(offset, size, cfg.chunk);
    LocateFromStore(cfg, c, p, base);
    var e := Locate(cfg, c, p, base).result.value;
    var off := IntraChunkOffset(offset, cfg.chunk);
    assert ToInt32(size) == size;
    assert EntryRead(e, off, size).value == e.data[off..off + size];
  }

  /**
   A read whose chunk is not cached and cannot be loaded (the backing store
   has no such file, or holds more than a chunk for it) fails with the
   load's error. An uncached path leaves the cache as it was. A path cached
   at another chunk has that entry synced before the load is tried; the
   stale entry stays in the map, now most recently used.
   */
  lemma ReadMissFails(cfg: Config, c: Cache, p: Path, size: nat, offset: int)
    requires Valid(cfg, c) && Admitted(cfg, offset, size)
    requires !(p in c.entries && c.entries[p].offset == AlignToChunkSize(offset, cfg.chunk))
    requires NewEntry(cfg.fetch, cfg.chunk, p, AlignToChunkSize(offset, cfg.chunk)).Err?
    ensures var r := Read(cfg, c, p, size, offset);
      && r.result == Err(NewEntry(cfg.fetch, cfg.chunk, p, AlignToChunkSize(offset, cfg.chunk)).error)
      && (p !in c.entries ==> r.cache == c)
      && (p in c.entries ==>
            && r.cache.entries == c.entries
            && r.cache.order == Touch(c.order, p)
            && r.cache.log == c.log + Sync(c.entries[p]))
  {
    LocateFromStore(cfg, c, p, AlignToChunkSize(offset, cfg.chunk));
  }

  /** The same for a write: nothing is inserted, so nothing is evicted, and the bytes go nowhere. */
  lemma WriteMissFails(cfg: Config, c: Cache, p: Path, bytes: seq<Byte>, offset: int)
    requires Valid(cfg, c) && Admitted(cfg, offset, |bytes|)
    requires !(p in c.entries && c.entries[p].offset == AlignToChunkSize(offset, cfg.chunk))
    requires NewEntry(cfg.fetch, cfg.chunk, p, AlignToChunkSize(offset, cfg.chunk)).Err?
    ensures var r := Write(cfg, c, p, bytes, offset);
      && r.result == Err(NewEntry(cfg.fetch, cfg.chunk, p, AlignToChunkSize(offset, cfg.chunk)).error)
      && (p !in c.entries ==> r.cache == c)
      && (p in c.entries ==>
            && r.cache.entries == c.entries
            && r.cache.order == Touch(c.order, p)
            && r.cache.log == c.log + Sync(c.entries[p]))
  {
    LocateFromStore(cfg, c, p, AlignToChunkSize(offset, cfg.chunk));
  }

  /**
   A write that misses the cached chunk lands in the chunk loaded from the
   backing store: the written range holds the bytes, every other byte of the
   chunk is the stored one, and the dirty mark ends exactly at the range.
   */
  lemma WriteMissKeepsStoredBytes(cfg: Config, c: Cache, p: Path, bytes: seq<Byte>, offset: int)
    requires Valid(cfg, c) && cfg.capacity > 0 && offset >= 0 && Admitted(cfg, offset, |bytes|)
    requires !(p in c.entries && c.entries[p].offset == AlignToChunkSize(offset, cfg.chunk))
    requires NewEntry(cfg.fetch, cfg.chunk, p, AlignToChunkSize(offset, cfg.chunk)).Ok?
    ensures var r := Write(cfg, c, p, bytes, offset);
      var stored := NewEntry(cfg.fetch, cfg.chunk, p, AlignToChunkSize(offset, cfg.chunk)).value;
      var off := IntraChunkOffset(offset, cfg.chunk);
      && r.result == Ok(|bytes|) && p in r.cache.entries
      && r.cache.entries[p].offset == stored.offset
      && 0 <= off && off + |bytes| <= cfg.chunk
      && r.cache.entries[p].data[off..off + |bytes|] == bytes
      && (forall j :: 0 <= j < cfg.chunk && !(off <= j < off + |bytes|) ==>
            r.cache.entries[p].data[j] == stored.data[j])
      && r.cache.entries[p].maxDirtyPos == off + |bytes|
  {
    var base := AlignToChunkSize(offset, cfg.chunk);
    InBoundsWhenContained(offset, |bytes|, cfg.chunk);
    LocateFromStore(cfg, c, p, base);
    var located := Locate(cfg, c, p, base);
    var e := located.result.value;
    var off := IntraChunkOffset(offset, cfg.chunk);
    assert ToInt32(|bytes|) == |bytes|;
    assert bytes[..|bytes|] == bytes;
    assert Write(cfg, c, p, bytes, offset) == WriteInto(cfg, located.cache, p, e, off, |bytes|, bytes);
  }

  /**
   Flushing after a write that missed sends one backing write of the chunk's
   prefix up to the end of the written range: the stored bytes before the
   range, then the written bytes. The bytes before the range are not zeroed.
   */
  lemma WriteMissThenFlush(cfg: Config, c: Cache, p: Path, bytes: seq<Byte>, offset: int)
    requires Valid(cfg, c) && cfg.capacity > 0 && offset >= 0 && Admitted(cfg, offset, |bytes|)
    requires |bytes| >= 1
    requires !(p in c.entries && c.entries[p].offset == AlignToChunkSize(offset, cfg.chunk))
    requires NewEntry(cfg.fetch, cfg.chunk, p, AlignToChunkSize(offset, cfg.chunk)).Ok?
    ensures var w := Write(cfg, c, p, bytes, offset).cache;
      var f := Flush(cfg, w, p);
      var stored := NewEntry(cfg.fetch, cfg.chunk, p, AlignToChunkSize(offset, cfg.chunk)).value;
      var off := IntraChunkOffset(offset, cfg.chunk);
      && 0 <= off <= |stored.data|
      && f.log == w.log + [BackingWrite(p, AlignToChunkSize(offset, cfg.chunk), stored.data[..off] + bytes)]
  {
    WriteMissKeepsStoredBytes(cfg, c, p, bytes, offset);
    var stored := NewEntry(cfg.fetch, cfg.chunk, p, AlignToChunkSize(offset, cfg.chunk)).value;
    FlushAfterOneWrite(cfg, Write(cfg, c, p, bytes, offset).cache, p, stored.data,
                       IntraChunkOffset(offset, cfg.chunk), bytes);
  }

  /** Flushing an entry whose only write put `bytes` at `off` over `stored` logs exactly that entry's sync. */
  lemma FlushAfterOneWrite(cfg: Config, w: Cache, p: Path, stored: seq<Byte>, off: int, bytes: seq<Byte>)
    requires Valid(cfg, w) && p in w.entries && |bytes| >= 1 && |stored| == cfg.chunk
    requires 0 <= off && off + |bytes| <= cfg.chunk
    requires w.entries[p].data[off..off + |bytes|] == bytes
    requires forall j :: 0 <= j < cfg.chunk && !(off <= j < off + |bytes|) ==> w.entries[p].data[j] == stored[j]
    requires w.entries[p].maxDirtyPos == off + |bytes|
    ensures Flush(cfg, w, p).log == w.log + [BackingWrite(p, w.entries[p].offset, stored[..off] + bytes)]
  {
    SyncAfterOneWrite(w.entries[p], stored, off, bytes);
  }

  /**
   An entry whose only write put `bytes` at `off` over `stored` syncs the
   stored bytes before the range followed by the written ones.
   */
  lemma SyncAfterOneWrite(e: CacheEntry, stored: seq<Byte>, off: int, bytes: seq<Byte>)
    requires 0 <= off && off + |bytes| <= |e.data| == |stored| && |bytes| >= 1
    requires e.maxDirtyPos == off + |bytes|
    requires e.data[off..off + |bytes|] == bytes
    requires forall j :: 0 <= j < |e.data| && !(off <= j < off + |bytes|) ==> e.data[j] == stored[j]
    ensures Sync(e) == [BackingWrite(e.path, e.offset, stored[..off] + bytes)]
  {
    var s := Sync(e);
    assert |s| == 1;
    assert |s[0].bytes| == off + |bytes|;
    forall j | 0 <= j < off + |bytes|
      ensures s[0].bytes[j] == (stored[..off] + bytes)[j]
    {
      if j >= off {
        assert e.data[off..off + |bytes|][j - off] == bytes[j - off];
      }
    }
    assert s[0].bytes == stored[..off] + bytes;
  }
}

=== FILE: chunk_addressing.dfy ===
/**
 Offset arithmetic of the caching filesystem layer: which chunk a byte
 position falls in, where inside that chunk it lies, and whether a request
 stays within one chunk.
 */
module ChunkAddressing {
  import opened JavaInts

  /** `Chunk.MAX_SIZE`: a positive Java `int` whose value is fixed outside this model. */
  type ChunkSize = m: int | 0 < m < 0x8000_0000 witness 1

  /** Quotient and remainder are unique: the facts Dafny's `/` and `%` need to be pinned down. */
  lemma DivModUnique(a: int, m: int, q: int, r: int)
    requires m > 0 && 0 <= r < m && a == q * m + r
    ensures a / m == q && a % m == r
  {
    var q', r' := a / m, a % m;
    assert (q - q') * m == r' - r;
    if q > q' {
      MulAtLeast(q - q', m);
    } else if q < q' {
      MulAtLeast(q' - q, m);
    }
  }

  lemma MulAtLeast(d: int, m: int)
    requires d >= 1 && m > 0
    ensures d * m >= m
  {
  }

  /** `alignToChunkSize`: the base offset of the chunk holding `pos`, clamped at 0. */
  function AlignToChunkSize(pos: int, m: ChunkSize): (r: int)
    ensures r >= 0 && r % m == 0
    ensures pos >= 0 ==> r <= pos < r + m
    ensures pos < m ==> r == 0
  {
    if pos < 0 then 0
    else
      var rem := pos % m;
      assert pos == (pos / m) * m + rem;
      DivModUnique(pos - rem, m, pos / m, 0);
      assert pos < m ==> rem == pos by {
        if pos < m { DivModUnique(pos, m, 0, pos); }
      }
      pos - rem
  }

  /** The source's formula `Math.max(0, pos / MAX_SIZE) * MAX_SIZE`, with Java's truncating `/`. */
  lemma AlignToChunkSizeMatchesFormula(pos: int, m: ChunkSize)
    ensures AlignToChunkSize(pos, m) == (if Div(pos, m) > 0 then Div(pos, m) else 0) * m
  {
    if pos < 0 {
      assert Div(pos, m) <= 0;
    } else {
      DivRemIdentity(pos, m);
    }
  }

  /**
   The intra-chunk offset as evidently intended, `(int)(pos % MAX_SIZE)`:
   the remainder is below the chunk size, so the cast changes nothing.
   */
  function IntraChunkOffset(pos: int, m: ChunkSize): (r: int)
    ensures -(m as int) < r < m
    ensures pos >= 0 ==> 0 <= r && AlignToChunkSize(pos, m) + r == pos
  {
    Rem(pos, m)
  }

  /**
   `intraChunkOffset` as written: `(int) pos % MAX_SIZE` casts `pos` to a
   32-bit `int` before taking the remainder. It agrees with the intended
   offset on positions below 2^31.
   */
  function IntraChunkOffsetAsWritten(pos: int, m: ChunkSize): (r: Int32)
    ensures 0 <= pos < TwoTo31 ==> r == IntraChunkOffset(pos, m)
  {
    Rem(ToInt32(pos), m)
  }

  /**
   `containedInOneChunk`: the first and the last position of `[start, end)`
   share a chunk. For a non-empty range that is the range ending by the end
   of its first chunk; from a negative start it is ending by `MAX_SIZE`.
   */
  predicate ContainedInOneChunk(start: int, end: int, m: ChunkSize): (r: bool)
    ensures 0 <= start < end ==> (r <==> end <= AlignToChunkSize(start, m) + m)
    ensures start < 0 ==> (r <==> end <= m)
  {
    if 0 <= start < end then
      LastByteInFirstChunk(start, end, m);
      AlignToChunkSize(start, m) == AlignToChunkSize(end - 1, m)
    else
      AlignToChunkSize(start, m) == AlignToChunkSize(end - 1, m)
  }

  /** The last byte of a non-empty range lies in its first chunk exactly when the range ends by that chunk's end. */
  lemma LastByteInFirstChunk(start: int, end: int, m: ChunkSize)
    requires 0 <= start < end
    ensures AlignToChunkSize(start, m) == AlignToChunkSize(end - 1, m) <==> end <= AlignToChunkSize(start, m) + m
  {
    var base := AlignToChunkSize(start, m);
    var last := end - 1;
    if end <= base + m {
      AlignOfOffsetInChunk(base, last - base, m);
    } else {
      var next := base + m;
      assert next % m == 0 by {
        DivModUnique(base, m, base / m, 0);
        DivModUnique(next, m, base / m + 1, 0);
      }
      assert AlignToChunkSize(last, m) >= next by {
        AlignMonotone(next, last, m);
        AlignOfOffsetInChunk(next, 0, m);
      }
    }
  }

  /** Aligning a position a whole number of chunks past an aligned base. */
  lemma AlignOfOffsetInChunk(base: int, k: int, m: ChunkSize)
    requires base >= 0 && base % m == 0 && 0 <= k < m
    ensures AlignToChunkSize(base + k, m) == base
  {
    var q := base / m;
    DivModUnique(base + k, m, q, k);
    DivModUnique(base, m, q, 0);
  }

  /**
   For a non-empty request at a non-negative offset, the containment check
   passes exactly when the request fits in the rest of its chunk.
   */
  lemma ContainedIffFits(offset: int, size: int, m: ChunkSize)
    requires offset >= 0 && size >= 1
    ensures ContainedInOneChunk(offset, offset + size, m)
        <==> IntraChunkOffset(offset, m) + size <= m
  {
    assert AlignToChunkSize(offset, m) + IntraChunkOffset(offset, m) == offset;
  }

  /** Alignment never decreases as the position grows. */
  lemma AlignMonotone(a: int, b: int, m: ChunkSize)
    requires 0 <= a <= b
    ensures AlignToChunkSize(a, m) <= AlignToChunkSize(b, m)
  {
    var qa, qb := a / m, b / m;
    if qa > qb {
      MulAtLeast(qa - qb, m);
      assert false;
    }
    if qa < qb {
      MulAtLeast(qb - qa, m);
    }
  }

  /**
   A request that passes the containment check at a non-negative offset
   never trips the entry's `ensureInBounds`: it lies inside the chunk buffer.
   */
  lemma InBoundsWhenContained(offset: int, size: nat, m: ChunkSize)
    requires ContainedInOneChunk(offset, offset + size, m)
    ensures offset >= 0 ==> 0 <= IntraChunkOffset(offset, m)
    ensures offset >= 0 ==> IntraChunkOffset(offset, m) + size <= m
  {
    if offset >= 0 && size >= 1 {
      ContainedIffFits(offset, size, m);
    }
  }

  /**
   An empty request exactly on a chunk boundary other than 0 is rejected:
   its "last byte" `offset - 1` lies in the previous chunk.
   */
  lemma EmptyRequestAtBoundaryRejected(k: int, m: ChunkSize)
    requires k >= 1
    ensures !ContainedInOneChunk(k * m, k * m, m)
  {
    MulAtLeast(k, m);
    var base := (k - 1) * m;
    DivModUnique(base, m, k - 1, 0);
    AlignOfOffsetInChunk(base, m - 1, m);
    DivModUnique(k * m, m, k, 0);
    AlignOfOffsetInChunk(k * m, 0, m);
  }

  /**
   As written, a one-byte request at position 2^32 - 1 passes the
   containment check, but the cast turns its intra-chunk offset into -1,
   an index before the start of the chunk buffer.
   */
  lemma IntraChunkOffsetAsWrittenGoesNegative(m: ChunkSize)
    requires m >= 2
    ensures ContainedInOneChunk(TwoTo32 - 1, TwoTo32, m)
    ensures IntraChunkOffsetAsWritten(TwoTo32 - 1, m) == -1
    ensures IntraChunkOffset(TwoTo32 - 1, m) >= 0
  {
    assert ToInt32(TwoTo32 - 1) == -1 by {
      ToInt32Unique(TwoTo32 - 1, -1);
    }
    DivModUnique(1, m, 0, 1);
  }
}

=== FILE: java_ints.dfy ===
/**
 Java's fixed-width integer arithmetic, written out over Dafny's unbounded
 integers: narrowing casts wrap around, and `/` and `%` truncate toward zero
 (Dafny's own `/` and `%` are Euclidean).
 */
module JavaInts {

  const TwoTo31: int := 0x8000_0000
  const TwoTo32: int := 0x1_0000_0000
  const TwoTo63: int := 0x8000_0000_0000_0000
  const TwoTo64: int := 0x1_0000_0000_0000_0000

  /** A Java `byte`, kept as its raw eight bits. */
  type Byte = bv8

  /** The values of a Java `int`. */
  type Int32 = x: int | -0x8000_0000 <= x < 0x8000_0000

  /** The values of a Java `long`. */
  type Int64 = x: int | -0x8000_0000_0000_0000 <= x < 0x8000_0000_0000_0000

  /** The narrowing cast `(int) x`: keep the low 32 bits, read as two's complement. */
  function ToInt32(x: int): (r: Int32)
    ensures (x - r) % TwoTo32 == 0
    ensures -TwoTo31 <= x < TwoTo31 ==> r == x
  {
    var low := x % TwoTo32;
    if low < TwoTo31 then low else low - TwoTo32
  }

  /** Arithmetic on `long` values: keep the low 64 bits, read as two's complement. */
  function ToInt64(x: int): (r: Int64)
    ensures (x - r) % TwoTo64 == 0
    ensures -TwoTo63 <= x < TwoTo63 ==> r == x
  {
    var low := x % TwoTo64;
    if low < TwoTo63 then low else low - TwoTo64
  }

  /** `ToInt32` is the only `int` congruent to its argument modulo 2^32. */
  lemma ToInt32Unique(x: int, r: Int32)
    requires (x - r) % TwoTo32 == 0
    ensures ToInt32(x) == r
  {
    var t := ToInt32(x);
    var a := (x - r) / TwoTo32;
    var b := (x - t) / TwoTo32;
    assert x - r == a * TwoTo32;
    assert x - t == b * TwoTo32;
    assert t - r == (a - b) * TwoTo32;
  }

  /** `ToInt64` is the only `long` congruent to its argument modulo 2^64. */
  lemma ToInt64Unique(x: int, r: Int64)
    requires (x - r) % TwoTo64 == 0
    ensures ToInt64(x) == r
  {
    var t := ToInt64(x);
    var a := (x - r) / TwoTo64;
    var b := (x - t) / TwoTo64;
    assert x - r == a * TwoTo64;
    assert x - t == b * TwoTo64;
    assert t - r == (a - b) * TwoTo64;
  }

  /** Java's integer division: the quotient is truncated toward zero. */
  function Div(a: int, b: int): (q: int)
    requires b > 0
    ensures a >= 0 ==> q >= 0 && q * b <= a < q * b + b
    ensures a <= 0 ==> q <= 0 && q * b - b < a <= q * b
  {
    if a >= 0 then a / b else -((-a) / b)
  }

  /** Java's remainder: the sign follows the dividend, the magnitude is below the divisor. */
  function Rem(a: int, b: int): (r: int)
    requires b > 0
    ensures a >= 0 ==> 0 <= r < b
    ensures a <= 0 ==> -b < r <= 0
  {
    if a >= 0 then a % b else -((-a) % b)
  }

  /** Java's `/` and `%` fit together: `(a / b) * b + a % b == a`. */
  lemma DivRemIdentity(a: int, b: int)
    requires b > 0
    ensures Div(a, b) * b + Rem(a, b) == a
  {
  }
}

=== FILE: outcomes.dfy ===
/** Failure-carrying datatypes shared by the cache and the upload chain. */
module Outcomes {

  /** An optional value: `Optional`, or a Java reference that may be null. */
  datatype Option<+T> = None | Some(value: T)

  /** The value of an operation, or the exception it raised. */
  datatype Result<+T, +E> = Ok(value: T) | Err(error: E)

  function Max(a: int, b: int): (r: int)
    ensures r >= a && r >= b
    ensures r == a || r == b
  {
    if a >= b then a else b
  }
}

=== FILE: upload_arithmetic.dfy ===
/**
 The integer arithmetic of `FileUploader`: passing a 64-bit length or offset
 as two 32-bit words, the number of chunks a file needs, and the size of
 each chunk.
 */
module UploadArithmetic {
  import opened JavaInts
  import opened ChunkAddressing

  /** The `long` constructor's split into `(int)(x >> 32)` and `(int) x`. */
  function Split(x: Int64): (r: (Int32, Int32))
    ensures r.0 * TwoTo32 + r.1 % TwoTo32 == x
  {
    (ToInt32(x / TwoTo32), ToInt32(x))
  }

  /**
   The recombination as written, `lo + ((hi & 0xFFFFFFFFL) << 32)`: the low
   word is sign-extended when it is added, so it counts as a signed value.
   */
  function RecombineAsWritten(hi: Int32, lo: Int32): (r: Int64)
    ensures (r - (hi * TwoTo32 + lo)) % TwoTo64 == 0
  {
    var shifted := ToInt64((hi % TwoTo32) * TwoTo32);
    ToInt64(lo + shifted)
  }

  /**
   The recombination as evidently intended, `(lo & 0xFFFFFFFFL) + ((hi &
   0xFFFFFFFFL) << 32)`: both words are read as unsigned.
   */
  function Recombine(hi: Int32, lo: Int32): (r: Int64)
    ensures (r - (hi * TwoTo32 + lo % TwoTo32)) % TwoTo64 == 0
  {
    var shifted := ToInt64((hi % TwoTo32) * TwoTo32);
    ToInt64(lo % TwoTo32 + shifted)
  }

  /** Splitting a `long` and recombining the words gives it back, for every `long`. */
  lemma RecombineSplit(x: Int64)
    ensures Recombine(Split(x).0, Split(x).1) == x
  {
    var (hi, lo) := Split(x);
    ToInt64Unique(hi * TwoTo32 + lo % TwoTo32, x);
    var r := Recombine(hi, lo);
    assert (r - x) % TwoTo64 == 0;
    ToInt64Unique(r, x);
  }

  /**
   As written, the round trip holds exactly for the values whose low word
   has bit 31 clear, that is whose low word is a non-negative `int`.
   */
  lemma RecombineAsWrittenSplitIff(x: Int64)
    ensures RecombineAsWritten(Split(x).0, Split(x).1) == x <==> x % TwoTo32 < TwoTo31
  {
    var (hi, lo) := Split(x);
    var r := RecombineAsWritten(hi, lo);
    if x % TwoTo32 < TwoTo31 {
      assert lo == x % TwoTo32;
      ToInt64Unique(r, x);
    } else {
      assert lo == x % TwoTo32 - TwoTo32;
      assert (r - (x - TwoTo32)) % TwoTo64 == 0;
    }
  }

  /** The smallest length the round trip breaks: 2^31 bytes come back as -2^31. */
  lemma TwoGiBLengthTurnsNegative()
    ensures Split(TwoTo31) == (0, -TwoTo31)
    ensures RecombineAsWritten(0, -TwoTo31) == -TwoTo31
    ensures Recombine(0, -TwoTo31) == TwoTo31
  {
    ToInt32Unique(TwoTo31, -TwoTo31);
    ToInt64Unique(-TwoTo31, -TwoTo31);
  }

  /** `nchunks`: one chunk for an empty (or negative) length, otherwise the ceiling of `length / MAX_SIZE`. */
  function NChunks(length: int, m: ChunkSize): (n: int)
    ensures n >= 1
    ensures length <= 0 ==> n == 1
    ensures length > 0 ==> (n - 1) * m < length <= n * m
  {
    if length > 0 then
      var q := (length + m - 1) / m;
      assert length + m - 1 == q * m + (length + m - 1) % m;
      assert (q - 1) * m == q * m - m;
      assert q >= 1 by {
        if q <= 0 { MulAtLeast(1 - q, m); }
      }
      q
    else 1
  }

  /**
   The size of chunk `i`, as `uploadChunk` computes it: a full chunk unless
   the file ends within it, in which case the rest of the file (cast to `int`).
   */
  function ChunkLength(length: int, i: nat, m: ChunkSize): (r: Int32)
    ensures length >= i * m + m ==> r == m
    ensures 0 <= length - i * m < m ==> r == length - i * m
  {
    var position := i * m;
    var isLastChunk := length < position + m;
    if isLastChunk then ToInt32(length - position) else m
  }

  /** For a non-empty file every chunk it is split into holds between 1 and `MAX_SIZE` bytes. */
  lemma ChunkLengthInRange(length: int, i: nat, m: ChunkSize)
    requires length > 0 && i < NChunks(length, m)
    ensures 0 < ChunkLength(length, i, m) <= m
    ensures i + 1 < NChunks(length, m) ==> ChunkLength(length, i, m) == m
    ensures i + 1 == NChunks(length, m) ==> ChunkLength(length, i, m) == length - i * m
  {
    var n := NChunks(length, m);
    assert i * m < length by {
      if i * m >= length {
        MulMono(i, n - 1, m);
        assert false;
      }
    }
    if i + 1 < n {
      MulMono(i + 1, n - 1, m);
    } else {
      assert i == n - 1;
    }
  }

  /** For a file of non-negative length no chunk up to the last has a negative size. */
  lemma ChunkLengthNonNegative(length: int, i: nat, m: ChunkSize)
    requires length >= 0 && i < NChunks(length, m)
    ensures ChunkLength(length, i, m) >= 0
  {
    if length > 0 { ChunkLengthInRange(length, i, m); }
  }

  /** The bytes the first `k` chunks cover never number fewer than zero. */
  lemma CoveredByNonNegative(length: int, k: nat, m: ChunkSize)
    requires length >= 0 && k <= NChunks(length, m)
    ensures CoveredBy(length, k, m) >= 0
  {
    if length > 0 { CoveredByPrefix(length, k, m); }
    else if k == 1 { assert CoveredBy(length, 1, m) == ChunkLength(length, 0, m); }
  }

  lemma MulMono(a: int, b: int, m: ChunkSize)
    requires 0 <= a <= b
    ensures a * m <= b * m
  {
    if a < b { MulAtLeast(b - a, m); }
  }

  /** The bytes covered by the first `k` chunks. */
  function CoveredBy(length: int, k: nat, m: ChunkSize): int
  {
    if k == 0 then 0 else CoveredBy(length, k - 1, m) + ChunkLength(length, k - 1, m)
  }

  /**
   The chunks tile the file: the first `k` of them cover `k` full chunks,
   until the last one, after which they cover exactly `length` bytes.
   */
  lemma {:induction false} CoveredByPrefix(length: int, k: nat, m: ChunkSize)
    requires length > 0 && k <= NChunks(length, m)
    ensures CoveredBy(length, k, m) == if k * m < length then k * m else length
  {
    if k > 0 {
      CoveredByPrefix(length, k - 1, m);
      ChunkLengthInRange(length, k - 1, m);
      assert (k - 1) * m + m == k * m;
      if k < NChunks(length, m) {
        MulMono(k, NChunks(length, m) - 1, m);
      }
    }
  }

  /** The sizes of all `nchunks` chunks add up to the file length. */
  lemma ChunkLengthsSumToLength(length: int, m: ChunkSize)
    requires length > 0
    ensures CoveredBy(length, NChunks(length, m), m) == length
  {
    CoveredByPrefix(length, NChunks(length, m), m);
  }

  /** An empty file is uploaded as a single empty chunk. */
  lemma EmptyFileIsOneEmptyChunk(m: ChunkSize)
    ensures NChunks(0, m) == 1 && ChunkLength(0, 0, m) == 0
  {
  }

  /** A 2500-byte file in 1024-byte chunks: three chunks of 1024, 1024 and 452 bytes. */
  lemma ThreeChunkExample()
    ensures NChunks(2500, 1024) == 3
    ensures ChunkLength(2500, 0, 1024) == 1024
    ensures ChunkLength(2500, 1, 1024) == 1024
    ensures ChunkLength(2500, 2, 1024) == 452
  {
  }
}

=== FILE: upload_chain.dfy ===
/**
 Properties of a whole upload: the chunks form a linked chain of locations,
 each chunk's metadata points (encrypted) at the next, every chunk's three
 effects appear in index order, and the chunks carry the file's bytes.
 */
module UploadChain {
  import opened Outcomes
  import opened JavaInts
  import opened ChunkAddressing
  import opened UploadArithmetic
  import opened Uploader

  /** An uploader as its constructors build it. */
  predicate Consistent(u: FileUploader)
  {
    u.nchunks == NChunks(u.length, u.maxSize)
  }

  /** A network on which every upload succeeds. */
  ghost predicate Reliable(network: Network)
  {
    && (forall fs, w, f :: network.uploadFragments(fs, w, f).Some?)
    && (forall b, l, w :: network.uploadChunk(b, l, w).Some?)
  }

  /** Decryption undoes location encryption under the same key and nonce. */
  ghost predicate Decrypts(crypto: Crypto)
  {
    forall l, k, n :: crypto.decryptLocation(crypto.encryptLocation(l, k, n), k, n) == Some(l)
  }

  /** The location the fold carries into chunk `k`: the initial one, then the ones drawn for each chunk. */
  function Accumulator(owner: Bytes, writer: Writer, entropy: Entropy, initial: Location, k: nat): Location
  {
    if k == 0 then initial else Location(owner, writer.publicKeyHash, entropy.mapKey(k - 1))
  }

  /** `L_k`: where chunk `k`'s metadata is stored. */
  function ChainLocation(owner: Bytes, writer: Writer, entropy: Entropy, initial: Location, k: nat): (l: Location)
    ensures l.owner == owner && l.writer == writer.publicKeyHash
  {
    Location(owner, writer.publicKeyHash, Accumulator(owner, writer, entropy, initial, k).mapKey)
  }

  /** The stream as it stands before chunk `k` is read. */
  function StreamBefore(u: FileUploader, k: nat): (r: Reader)
    requires 0 <= u.length && Consistent(u) && k <= u.nchunks
    ensures r.bytes == u.reader.bytes
  {
    CoveredByNonNegative(u.length, k, u.maxSize);
    Reader(u.reader.bytes, u.reader.position + CoveredBy(u.length, k, u.maxSize))
  }

  /** The bytes chunk `k` is made of. */
  function ChunkData(u: FileUploader, k: nat): Bytes
    requires 0 <= u.length && Consistent(u) && k < u.nchunks
  {
    ChunkLengthNonNegative(u.length, k, u.maxSize);
    ReadInto(StreamBefore(u, k), ChunkLength(u.length, k, u.maxSize)).1
  }

  /**
   `block` is what uploading chunk `k` does: read its bytes, upload the
   fragments of its encryption, then upload at `L_k` a metadata blob that
   records the fragments' hashes and points at `L_{k+1}` encrypted under
   the chunk's key.
   */
  predicate ChunkLogged(u: FileUploader, env: Env, owner: Bytes, writer: Writer, initial: Location,
                        k: nat, block: seq<Effect>)
    requires 0 <= u.length && Consistent(u) && k < u.nchunks
  {
    var data := ChunkData(u, k);
    var at := ChainLocation(owner, writer, env.entropy, initial, k);
    var next := ChainLocation(owner, writer, env.entropy, initial, k + 1);
    var chunk := Chunk(data, u.metaKey, at.mapKey, env.entropy.chunkNonce(k));
    && |block| == 3
    && block[0] == StreamRead(data)
    && block[1] == FragmentsUploaded(env.crypto.generateFragments(env.crypto.encrypt(chunk), u.fragmenter))
    && block[2].MetadataUploaded?
    && block[2].at == at
    && block[2].blob.chunkKey == u.metaKey
    && block[2].blob.retriever.nextChunk == Some(Pointer(env.crypto, next, u.metaKey, env.entropy.pointerNonce(k)))
    && env.network.uploadFragments(block[1].fragments, writer, u.fragmenter.storageIncreaseFactor)
       == Some(block[2].blob.retriever.fragmentHashes)
  }

  /** Chunk `k`'s effects are the `(k - first)`-th block of three in `log`. */
  predicate LoggedAt(u: FileUploader, env: Env, owner: Bytes, writer: Writer, initial: Location,
                     k: nat, log: seq<Effect>, first: nat)
    requires 0 <= u.length && Consistent(u) && first <= k < u.nchunks
  {
    3 * (k - first) + 3 <= |log| &&
    ChunkLogged(u, env, owner, writer, initial, k, log[3 * (k - first) .. 3 * (k - first) + 3])
  }

  /** A chunk logged first stays logged first when more effects follow. */
  lemma LoggedFirst(u: FileUploader, env: Env, owner: Bytes, writer: Writer, initial: Location,
                    k: nat, block: seq<Effect>, rest: seq<Effect>)
    requires 0 <= u.length && Consistent(u) && k < u.nchunks
    requires ChunkLogged(u, env, owner, writer, initial, k, block)
    ensures LoggedAt(u, env, owner, writer, initial, k, block + rest, k)
  {
    assert (block + rest)[0 .. 3] == block;
  }

  /** A chunk logged in `rest` stays logged, one block later, once a block is put in front. */
  lemma LoggedAfter(u: FileUploader, env: Env, owner: Bytes, writer: Writer, initial: Location,
                    k: nat, block: seq<Effect>, rest: seq<Effect>, first: nat)
    requires 0 <= u.length && Consistent(u) && first < k < u.nchunks && |block| == 3
    requires LoggedAt(u, env, owner, writer, initial, k, rest, first + 1)
    ensures LoggedAt(u, env, owner, writer, initial, k, block + rest, first)
  {
    var j := 3 * (k - first - 1);
    assert (block + rest)[j + 3 .. j + 6] == rest[j .. j + 3];
  }

  /** One step of the fold on a reliable network: chunk `k` is logged and the fold moves to `k + 1`. */
  lemma StepLogged(u: FileUploader, env: Env, owner: Bytes, writer: Writer, initial: Location, k: nat)
    requires Reliable(env.network) && 0 <= u.length && Consistent(u) && k < u.nchunks
    ensures var step := UploadChunkAt(u, env, owner, writer, k, Accumulator(owner, writer, env.entropy, initial, k),
                                      None, StreamBefore(u, k));
      && step.result == Ok((Accumulator(owner, writer, env.entropy, initial, k + 1), StreamBefore(u, k + 1)))
      && ChunkLogged(u, env, owner, writer, initial, k, step.log)
  {
    var current := Accumulator(owner, writer, env.entropy, initial, k);
    var reader := StreamBefore(u, k);
    var len := ChunkLength(u.length, k, u.maxSize);
    ChunkLengthNonNegative(u.length, k, u.maxSize);
    var step := UploadChunkAt(u, env, owner, writer, k, current, None, reader);
    var data := ReadInto(reader, len).1;
    var chunk := Chunk(data, u.metaKey, current.mapKey, env.entropy.chunkNonce(k));
    var located := LocatedChunk(Location(owner, writer.publicKeyHash, chunk.mapKey), None, chunk);
    var next := Location(owner, writer.publicKeyHash, env.entropy.mapKey(k));
    var sent := UploadChunk(writer, u.props, u.parentLocation, u.parentKey, u.baseKey, located,
                            u.fragmenter, next, env.crypto, env.network,
                            env.entropy.pointerNonce(k), env.entropy.freshKey(k));
    assert step.log == [StreamRead(data)] + sent.log;
    assert env.network.uploadFragments(sent.log[0].fragments, writer, u.fragmenter.storageIncreaseFactor).Some?;
    assert |sent.log| == 2;
    assert env.network.uploadChunk(sent.log[1].blob, sent.log[1].at, writer).Some?;
    assert step.result.Ok?;
    assert ChainLocation(owner, writer, env.entropy, initial, k + 1) == next;
  }

  /**
   `r` is the rest of a successful upload from chunk `i` on: one block of
   three effects per remaining chunk, in index order, completing with the
   location drawn by the last chunk.
   */
  predicate LogsChunksFrom(u: FileUploader, env: Env, owner: Bytes, writer: Writer, initial: Location,
                           i: nat, r: Outcome<Location>)
    requires 0 <= u.length && Consistent(u) && i <= u.nchunks
  {
    && r.result == Ok(Accumulator(owner, writer, env.entropy, initial, u.nchunks))
    && |r.log| == 3 * (u.nchunks - i)
    && forall k :: i <= k < u.nchunks ==> LoggedAt(u, env, owner, writer, initial, k, r.log, i)
  }

  /** Putting chunk `i`'s block in front of the blocks of chunks `i + 1, ...` logs them all from `i`. */
  lemma LoggedFrom(u: FileUploader, env: Env, owner: Bytes, writer: Writer, initial: Location,
                   i: nat, block: seq<Effect>, rest: Outcome<Location>)
    requires 0 <= u.length && Consistent(u) && i < u.nchunks
    requires ChunkLogged(u, env, owner, writer, initial, i, block)
    requires LogsChunksFrom(u, env, owner, writer, initial, i + 1, rest)
    ensures LogsChunksFrom(u, env, owner, writer, initial, i, Outcome(block + rest.log, rest.result))
  {
    forall k | i <= k < u.nchunks
      ensures LoggedAt(u, env, owner, writer, initial, k, block + rest.log, i)
    {
      if k == i {
        LoggedFirst(u, env, owner, writer, initial, k, block, rest.log);
      } else {
        LoggedAfter(u, env, owner, writer, initial, k, block, rest.log, i);
      }
    }
  }

  /** A fold whose first step succeeds is that step's effects followed by the rest of the fold. */
  lemma FoldStep(u: FileUploader, env: Env, owner: Bytes, writer: Writer,
                 i: nat, count: int, current: Location, reader: Reader)
    requires i < count
    requires UploadChunkAt(u, env, owner, writer, i, current, None, reader).result.Ok?
    ensures var step := UploadChunkAt(u, env, owner, writer, i, current, None, reader);
      var rest := Fold(u, env, owner, writer, i + 1, count, step.result.value.0, step.result.value.1);
      Fold(u, env, owner, writer, i, count, current, reader) == Outcome(step.log + rest.log, rest.result)
  {
  }

  /**
   On a reliable network the fold from chunk `i` to the last logs every
   remaining chunk, three effects each, in index order, and completes with
   the location drawn by the last chunk.
   */
  lemma {:induction false} FoldLogged(u: FileUploader, env: Env, owner: Bytes, writer: Writer,
                                      initial: Location, i: nat)
    requires Reliable(env.network) && 0 <= u.length && Consistent(u) && i <= u.nchunks
    ensures LogsChunksFrom(u, env, owner, writer, initial, i,
                           Fold(u, env, owner, writer, i, u.nchunks,
                                Accumulator(owner, writer, env.entropy, initial, i), StreamBefore(u, i)))
    decreases u.nchunks - i
  {
    if i < u.nchunks {
      var current := Accumulator(owner, writer, env.entropy, initial, i);
      StepLogged(u, env, owner, writer, initial, i);
      FoldLogged(u, env, owner, writer, initial, i + 1);
      FoldStep(u, env, owner, writer, i, u.nchunks, current, StreamBefore(u, i));
      var step := UploadChunkAt(u, env, owner, writer, i, current, None, StreamBefore(u, i));
      var rest := Fold(u, env, owner, writer, i + 1, u.nchunks,
                       Accumulator(owner, writer, env.entropy, initial, i + 1), StreamBefore(u, i + 1));
      LoggedFrom(u, env, owner, writer, initial, i, step.log, rest);
    }
  }

  /**
   A whole upload on a reliable network: `nchunks` chunks, each logged as
   `ChunkLogged` says, in index order, and the upload completes with the
   original location.
   */
  lemma UploadLogged(u: FileUploader, env: Env, owner: Bytes, writer: Writer, initial: Location)
    requires Reliable(env.network) && 0 <= u.length && Consistent(u) && u.nchunks < TwoTo31
    ensures var r := Upload(u, env, owner, writer, initial);
      && r.result == Ok(initial)
      && |r.log| == 3 * u.nchunks
      && forall k :: 0 <= k < u.nchunks ==> LoggedAt(u, env, owner, writer, initial, k, r.log, 0)
  {
    assert StreamBefore(u, 0) == u.reader;
    FoldLogged(u, env, owner, writer, initial, 0);
  }

  /**
   Every chunk's pointer decrypts, under the chunk's own key, to the
   location of the next chunk's metadata; the last chunk's pointer leads to
   the location drawn after it.
   */
  lemma PointersLinkTheChain(u: FileUploader, env: Env, owner: Bytes, writer: Writer, initial: Location, k: nat)
    requires Reliable(env.network) && Decrypts(env.crypto)
    requires 0 <= u.length && Consistent(u) && u.nchunks < TwoTo31 && k < u.nchunks
    ensures var log := Upload(u, env, owner, writer, initial).log;
      && 3 * k + 2 < |log| && log[3 * k + 2].MetadataUploaded?
      && var blob := log[3 * k + 2].blob;
      && blob.retriever.nextChunk.Some?
      && var pointer := blob.retriever.nextChunk.value;
      && env.crypto.decryptLocation(pointer.body, blob.chunkKey, pointer.nonce)
         == Some(if k + 1 < u.nchunks && 3 * (k + 1) + 2 < |log| && log[3 * (k + 1) + 2].MetadataUploaded?
                 then log[3 * (k + 1) + 2].at
                 else Location(owner, writer.publicKeyHash, env.entropy.mapKey(k)))
  {
    UploadLogged(u, env, owner, writer, initial);
    var log := Upload(u, env, owner, writer, initial).log;
    assert LoggedAt(u, env, owner, writer, initial, k, log, 0);
    if k + 1 < u.nchunks {
      assert LoggedAt(u, env, owner, writer, initial, k + 1, log, 0);
    }
  }

  /** Every chunk's metadata is stored under the uploading owner and writer. */
  lemma ChainHasOneOwnerAndWriter(u: FileUploader, env: Env, owner: Bytes, writer: Writer, initial: Location, k: nat)
    requires Reliable(env.network) && 0 <= u.length && Consistent(u) && u.nchunks < TwoTo31 && k < u.nchunks
    ensures var log := Upload(u, env, owner, writer, initial).log;
      && 3 * k + 2 < |log| && log[3 * k + 2].MetadataUploaded?
      && log[3 * k + 2].at.owner == owner && log[3 * k + 2].at.writer == writer.publicKeyHash
  {
    UploadLogged(u, env, owner, writer, initial);
    var log := Upload(u, env, owner, writer, initial).log;
    assert LoggedAt(u, env, owner, writer, initial, k, log, 0);
  }

  /**
   Reading a complete file from its start, chunk `k` carries exactly the
   file's bytes `[k * MAX_SIZE, k * MAX_SIZE + size_k)`.
   */
  lemma ChunkCarriesFileSlice(u: FileUploader, k: nat)
    requires 0 < u.length && Consistent(u) && k < u.nchunks
    requires u.reader.position == 0 && |u.reader.bytes| >= u.length
    ensures var start, len := k * u.maxSize, ChunkLength(u.length, k, u.maxSize);
      && 0 <= start && 0 < len && start + len <= u.length
      && ChunkData(u, k) == u.reader.bytes[start .. start + len]
  {
    var m := u.maxSize;
    CoveredByPrefix(u.length, k, m);
    CoveredByPrefix(u.length, k + 1, m);
    ChunkLengthInRange(u.length, k, m);
    assert CoveredBy(u.length, k, m) == k * m by {
      if k * m >= u.length {
        MulMono(k, u.nchunks - 1, m);
        assert false;
      }
    }
    assert (k + 1) * m == k * m + m;
  }

  /**
   A negative length that fits an `int` sizes the first chunk's array
   negatively: the upload fails before any effect.
   */
  lemma NegativeLengthFailsFirst(u: FileUploader, env: Env, owner: Bytes, writer: Writer, initial: Location)
    requires Consistent(u) && -TwoTo31 <= u.length < 0
    ensures Upload(u, env, owner, writer, initial) == Outcome([], Err(NegativeArraySize))
  {
    assert ChunkLength(u.length, 0, u.maxSize) == u.length;
  }
}

=== FILE: uploader.dfy ===
/**
 `FileUploader`: a file is cut into chunks of at most `Chunk.MAX_SIZE`
 bytes, each chunk is encrypted, erasure-coded into fragments and uploaded,
 and each chunk's metadata blob is stored at a location whose map key the
 previous chunk chose, with that location encrypted into the previous
 chunk's metadata. Cryptography, erasure coding, randomness and the network
 are oracles supplied by the caller. The externally visible effects, the
 stream reads and the two uploads of each chunk, are recorded in an effect
 log; encryption, location encryption and random draws are pure oracle
 calls and leave no record.
 */
module Uploader {
  import opened Outcomes
  import opened JavaInts
  import opened ChunkAddressing
  import opened UploadArithmetic

  type Bytes = seq<Byte>
  type Hash = Bytes
  type Fragment = Bytes

  datatype SymmetricKey = SymmetricKey(secret: Bytes)

  /** A signing key pair, known to the network by the hash of its public half. */
  datatype Writer = Writer(publicKeyHash: Bytes, secret: Bytes)

  /** Where a metadata blob lives: owner, writer and a random map key. */
  datatype Location = Location(owner: Bytes, writer: Bytes, mapKey: Bytes)

  datatype CipherText = CipherText(nonce: Bytes, body: Bytes)

  /** The plaintext of one chunk, with the key, map key and nonce it is encrypted under. */
  datatype Chunk = Chunk(data: Bytes, key: SymmetricKey, mapKey: Bytes, nonce: Bytes)

  datatype LocatedChunk = LocatedChunk(location: Location, existingHash: Option<Hash>, chunk: Chunk)

  datatype EncryptedChunk = EncryptedChunk(cipher: Bytes, auth: Bytes)

  datatype Fragmenter = Fragmenter(storageIncreaseFactor: int)

  /** `EncryptedChunkRetriever`: how to fetch and decrypt a chunk, and where the next one is. */
  datatype Retriever = Retriever(
    nonce: Bytes, auth: Bytes, fragmentHashes: seq<Hash>,
    nextChunk: Option<CipherText>, fragmenter: Fragmenter)

  /** The file's name, MIME type and size; the modification time is not modelled. */
  datatype FileProperties = FileProperties(name: string, mimeType: string, size: int)

  /** The metadata blob `FileAccess.create` builds for one chunk. */
  datatype FileAccess = FileAccess(
    existingHash: Option<Hash>, baseKey: SymmetricKey, freshKey: SymmetricKey,
    chunkKey: SymmetricKey, props: FileProperties, retriever: Retriever,
    parent: Location, parentKey: SymmetricKey)

  /** Encryption and erasure coding; `decryptLocation` is only used to state properties. */
  datatype Crypto = Crypto(
    encrypt: Chunk -> EncryptedChunk,
    generateFragments: (EncryptedChunk, Fragmenter) -> seq<Fragment>,
    encryptLocation: (Location, SymmetricKey, Bytes) -> Bytes,
    decryptLocation: (Bytes, SymmetricKey, Bytes) -> Option<Location>)

  /** The network: `None` is a failed upload. */
  datatype Network = Network(
    uploadFragments: (seq<Fragment>, Writer, int) -> Option<seq<Hash>>,
    uploadChunk: (FileAccess, Location, Writer) -> Option<Hash>)

  /**
   The random values drawn while uploading chunk `i`: the chunk nonce and
   the next map key from the `SafeRandom`, the pointer nonce from
   `createNonce`, and the blob's fresh key from `SymmetricKey.random`.
   */
  datatype Entropy = Entropy(
    chunkNonce: nat -> Bytes, mapKey: nat -> Bytes,
    pointerNonce: nat -> Bytes, freshKey: nat -> SymmetricKey)

  datatype Env = Env(crypto: Crypto, network: Network, entropy: Entropy)

  /** The uploader's externally visible effects, in order: stream reads and uploads. */
  datatype Effect =
    | StreamRead(bytes: Bytes)
    | FragmentsUploaded(fragments: seq<Fragment>)
    | MetadataUploaded(at: Location, blob: FileAccess)

  datatype UploadError = NegativeArraySize | FragmentUploadFailed | MetadataUploadFailed

  /** The effects performed and the value or error the (future of the) call completes with. */
  datatype Outcome<+T> = Outcome(log: seq<Effect>, result: Result<T, UploadError>)

  /** The resettable input stream: the file's bytes and the read position. */
  datatype Reader = Reader(bytes: Bytes, position: nat)

  /**
   `readIntoArray(data, 0, len)` into a fresh zeroed array: the bytes from
   the position on, padded with zeros past the end of the stream. The
   number of bytes read is not checked by the uploader, so a short stream
   leaves zeros in the chunk.
   */
  function ReadInto(r: Reader, len: nat): (out: (Reader, Bytes))
    ensures out.0 == Reader(r.bytes, r.position + len)
    ensures |out.1| == len
    ensures forall j :: 0 <= j < len && r.position + j < |r.bytes| ==> out.1[j] == r.bytes[r.position + j]
    ensures forall j :: 0 <= j < len && r.position + j >= |r.bytes| ==> out.1[j] == 0
  {
    var data := seq(len, j requires 0 <= j < len =>
      if r.position + j < |r.bytes| then r.bytes[r.position + j] else 0);
    (Reader(r.bytes, r.position + len), data)
  }

  datatype FileUploader = FileUploader(
    name: string, offset: Int64, length: Int64, props: FileProperties,
    baseKey: SymmetricKey, metaKey: SymmetricKey, nchunks: int,
    parentLocation: Location, parentKey: SymmetricKey,
    fragmenter: Fragmenter, reader: Reader, maxSize: ChunkSize)

  /**
   The word-wise constructor. The length and offset are recombined from
   their words (with the corrected recombination); absent properties
   default to the name, MIME type and length, and an absent base key to
   `randomKey`.
   */
  function NewUploader(
    name: string, mimeType: string, reader: Reader,
    offsetHi: Int32, offsetLow: Int32, lengthHi: Int32, lengthLow: Int32,
    baseKey: Option<SymmetricKey>, randomKey: SymmetricKey, metaKey: SymmetricKey,
    parentLocation: Location, parentKey: SymmetricKey,
    props: Option<FileProperties>, fragmenter: Fragmenter, maxSize: ChunkSize): (u: FileUploader)
    ensures (u.length - (lengthHi * TwoTo32 + lengthLow % TwoTo32)) % TwoTo64 == 0
    ensures (u.offset - (offsetHi * TwoTo32 + offsetLow % TwoTo32)) % TwoTo64 == 0
    ensures u.nchunks >= 1 && (u.length <= 0 ==> u.nchunks == 1)
    ensures u.length > 0 ==> (u.nchunks - 1) * maxSize < u.length <= u.nchunks * maxSize
    ensures u.nchunks == NChunks(u.length, maxSize)
    ensures props.None? ==> u.props == FileProperties(name, mimeType, u.length)
    ensures props.Some? ==> u.props == props.value
    ensures u.baseKey == (if baseKey.Some? then baseKey.value else randomKey)
    ensures u.reader == reader && u.metaKey == metaKey && u.maxSize == maxSize
  {
    var length := Recombine(lengthHi, lengthLow);
    var offset := Recombine(offsetHi, offsetLow);
    FileUploader(
      name, offset, length,
      if props.None? then FileProperties(name, mimeType, length) else props.value,
      if baseKey.None? then randomKey else baseKey.value,
      metaKey, NChunks(length, maxSize), parentLocation, parentKey,
      fragmenter, reader, maxSize)
  }

  /** The `long` constructor, which splits each value into words and delegates. */
  function NewUploaderFromLongs(
    name: string, mimeType: string, reader: Reader, offset: Int64, length: Int64,
    baseKey: Option<SymmetricKey>, randomKey: SymmetricKey, metaKey: SymmetricKey,
    parentLocation: Location, parentKey: SymmetricKey,
    props: Option<FileProperties>, fragmenter: Fragmenter, maxSize: ChunkSize): (u: FileUploader)
    ensures u.length == length && u.offset == offset
    ensures u.nchunks >= 1 && (length <= 0 ==> u.nchunks == 1)
    ensures length > 0 ==> (u.nchunks - 1) * maxSize < length <= u.nchunks * maxSize
    ensures u.nchunks == NChunks(length, maxSize)
  {
    var (oh, ol) := Split(offset);
    var (lh, ll) := Split(length);
    RecombineSplit(offset);
    RecombineSplit(length);
    NewUploader(name, mimeType, reader, oh, ol, lh, ll, baseKey, randomKey, metaKey,
                parentLocation, parentKey, props, fragmenter, maxSize)
  }

  /** The pointer to the next chunk, as chunk metadata carries it. */
  function Pointer(crypto: Crypto, next: Location, key: SymmetricKey, nonce: Bytes): CipherText
  {
    CipherText(nonce, crypto.encryptLocation(next, key, nonce))
  }

  /**
   The static `uploadChunk`: encrypt the chunk, erasure-code it, upload the
   fragments, and only once their hashes are back build the metadata blob
   (pointing, encrypted, at `next`) and upload it at the chunk's location.
   */
  function UploadChunk(
    writer: Writer, props: FileProperties, parentLocation: Location, parentKey: SymmetricKey,
    baseKey: SymmetricKey, chunk: LocatedChunk, fragmenter: Fragmenter, next: Location,
    crypto: Crypto, network: Network, pointerNonce: Bytes, freshKey: SymmetricKey): (r: Outcome<Hash>)
    ensures 1 <= |r.log| <= 2
    ensures r.log[0] == FragmentsUploaded(crypto.generateFragments(crypto.encrypt(chunk.chunk), fragmenter))
    ensures |r.log| == 2 <==> network.uploadFragments(r.log[0].fragments, writer, fragmenter.storageIncreaseFactor).Some?
    ensures |r.log| == 1 ==> r.result == Err(FragmentUploadFailed)
    ensures |r.log| == 2 ==> (
      var hashes := network.uploadFragments(r.log[0].fragments, writer, fragmenter.storageIncreaseFactor).value;
      && r.log[1].MetadataUploaded?
      && r.log[1].at == Location(chunk.location.owner, writer.publicKeyHash, chunk.chunk.mapKey)
      && r.log[1].blob.retriever.fragmentHashes == hashes
      && r.log[1].blob.retriever.nextChunk == Some(Pointer(crypto, next, chunk.chunk.key, pointerNonce))
      && r.log[1].blob.chunkKey == chunk.chunk.key
      && (r.result.Ok? <==> network.uploadChunk(r.log[1].blob, r.log[1].at, writer).Some?))
    ensures r.result.Err? ==> r.result.error != NegativeArraySize
  {
    var encrypted := crypto.encrypt(chunk.chunk);
    var fragments := crypto.generateFragments(encrypted, fragmenter);
    var chunkKey := chunk.chunk.key;
    var pointer := Pointer(crypto, next, chunkKey, pointerNonce);
    match network.uploadFragments(fragments, writer, fragmenter.storageIncreaseFactor)
    case None => Outcome([FragmentsUploaded(fragments)], Err(FragmentUploadFailed))
    case Some(hashes) =>
      var retriever := Retriever(chunk.chunk.nonce, encrypted.auth, hashes, Some(pointer), fragmenter);
      var blob := FileAccess(chunk.existingHash, baseKey, freshKey, chunkKey, props, retriever,
                             parentLocation, parentKey);
      var at := Location(chunk.location.owner, writer.publicKeyHash, chunk.chunk.mapKey);
      var log := [FragmentsUploaded(fragments), MetadataUploaded(at, blob)];
      match network.uploadChunk(blob, at, writer)
      case None => Outcome(log, Err(MetadataUploadFailed))
      case Some(h) => Outcome(log, Ok(h))
  }

  /** The chunk the instance `uploadChunk` builds for chunk `i` from the bytes read. */
  function ChunkFor(u: FileUploader, env: Env, i: nat, current: Location, data: Bytes): Chunk
  {
    Chunk(data, u.metaKey, current.mapKey, env.entropy.chunkNonce(i))
  }

  /**
   The instance `uploadChunk` for chunk `i`, stored at `current`'s map key:
   size the chunk, read it from the stream, draw the next location and
   hand over to the static `UploadChunk`. Completes with the next location
   (and the advanced stream).
   */
  function UploadChunkAt(
    u: FileUploader, env: Env, owner: Bytes, writer: Writer, i: nat,
    current: Location, existingHash: Option<Hash>, reader: Reader): (r: Outcome<(Location, Reader)>)
    ensures ChunkLength(u.length, i, u.maxSize) < 0 <==> r.result == Err(NegativeArraySize)
    ensures ChunkLength(u.length, i, u.maxSize) < 0 ==> r.log == []
    ensures ChunkLength(u.length, i, u.maxSize) >= 0 ==> (
      var len := ChunkLength(u.length, i, u.maxSize);
      && 2 <= |r.log| <= 3
      && r.log[0] == StreamRead(ReadInto(reader, len).1)
      && (r.result.Ok? <==> |r.log| == 3 && r.log[2].MetadataUploaded? &&
                            env.network.uploadChunk(r.log[2].blob, r.log[2].at, writer).Some?))
    ensures r.result.Ok? ==> (
      && r.result.value.0 == Location(owner, writer.publicKeyHash, env.entropy.mapKey(i))
      && r.log[2].at == Location(owner, writer.publicKeyHash, current.mapKey)
      && r.result.value.1 == ReadInto(reader, ChunkLength(u.length, i, u.maxSize)).0)
  {
    var len := ChunkLength(u.length, i, u.maxSize);
    if len < 0 then Outcome([], Err(NegativeArraySize))
    else
      var (advanced, data) := ReadInto(reader, len);
      var chunk := ChunkFor(u, env, i, current, data);
      var located := LocatedChunk(Location(owner, writer.publicKeyHash, chunk.mapKey), existingHash, chunk);
      var next := Location(owner, writer.publicKeyHash, env.entropy.mapKey(i));
      var sent := UploadChunk(writer, u.props, u.parentLocation, u.parentKey, u.baseKey, located,
                              u.fragmenter, next, env.crypto, env.network,
                              env.entropy.pointerNonce(i), env.entropy.freshKey(i));
      Outcome([StreamRead(data)] + sent.log,
              if sent.result.Ok? then Ok((next, advanced)) else Err(sent.result.error))
  }

  /**
   `Futures.reduceAll` over the chunk indices `i, ..., count - 1`: each
   chunk is uploaded at the location the previous one returned, and the
   first failure ends the fold.
   */
  function Fold(
    u: FileUploader, env: Env, owner: Bytes, writer: Writer,
    i: nat, count: int, current: Location, reader: Reader): (r: Outcome<Location>)
    ensures i >= count ==> r == Outcome([], Ok(current))
    ensures r.result.Ok? ==> |r.log| == 3 * (if i < count then count - i else 0)
    decreases count - i
  {
    if i >= count then Outcome([], Ok(current))
    else
      var step := UploadChunkAt(u, env, owner, writer, i, current, None, reader);
      if step.result.Err? then Outcome(step.log, Err(step.result.error))
      else
        var rest := Fold(u, env, owner, writer, i + 1, count, step.result.value.0, step.result.value.1);
        Outcome(step.log + rest.log, rest.result)
  }

  /**
   `upload`: fold over chunk indices `0 .. (int) nchunks - 1` starting at
   `current`, and complete with the original location, not the last one.
   */
  function Upload(u: FileUploader, env: Env, owner: Bytes, writer: Writer, current: Location): (r: Outcome<Location>)
    ensures r.result.Ok? ==> r.result.value == current
    ensures ToInt32(u.nchunks) <= 0 ==> r == Outcome([], Ok(current))
    ensures r.result.Ok? ==> |r.log| == 3 * (if ToInt32(u.nchunks) > 0 then ToInt32(u.nchunks) else 0)
  {
    var folded := Fold(u, env, owner, writer, 0, ToInt32(u.nchunks), current, u.reader);
    Outcome(folded.log, if folded.result.Ok? then Ok(current) else Err(folded.result.error))
  }

  /**
   Steps `i, ..., j - 1` of any step function from state `s`, each starting
   from the state the previous one completed with; the first failure ends
   the run. `Fold` is this run for the upload's step (`FoldIsSteps`).
   */
  function Run<S>(step: (nat, S) -> Outcome<S>, i: nat, j: nat, s: S): Outcome<S>
    requires i <= j
    decreases j - i
  {
    if i == j then Outcome([], Ok(s))
    else
      var first := step(i, s);
      if first.result.Err? then Outcome(first.log, Err(first.result.error))
      else
        var rest := Run(step, i + 1, j, first.result.value);
        Outcome(first.log + rest.log, rest.result)
  }

  /** Running one step further appends that step to a run that succeeded. */
  lemma {:induction false} RunThenOne<S>(step: (nat, S) -> Outcome<S>, i: nat, j: nat, s: S, t: S)
    requires i <= j && Run(step, i, j, s).result == Ok(t)
    ensures Run(step, i, j + 1, s) == Outcome(Run(step, i, j, s).log + step(j, t).log, step(j, t).result)
    decreases j - i
  {
    if i < j {
      var first := step(i, s);
      RunThenOne(step, i + 1, j, first.result.value, t);
      var done := Run(step, i + 1, j, first.result.value).log;
      assert first.log + (done + step(j, t).log) == (first.log + done) + step(j, t).log;
    } else {
      assert Run(step, j + 1, j + 1, t).log == [];
      assert step(j, t).log + [] == [] + step(j, t).log;
    }
  }

  /** A run that has failed stays failed, with the same effects, however far it is taken. */
  lemma {:induction false} RunStaysFailed<S>(step: (nat, S) -> Outcome<S>, i: nat, k: nat, n: nat, s: S)
    requires i <= k <= n && Run(step, i, k, s).result.Err?
    ensures Run(step, i, n, s) == Run(step, i, k, s)
    decreases k - i
  {
    if step(i, s).result.Ok? {
      RunStaysFailed(step, i + 1, k, n, step(i, s).result.value);
    }
  }

  /** The state the fold carries from one chunk to the next: a location and the stream. */
  type Carried = (Location, Reader)

  /** The fold's step for chunk `k`: the instance `uploadChunk` from the carried state. */
  function Step(u: FileUploader, env: Env, owner: Bytes, writer: Writer): (nat, Carried) -> Outcome<Carried>
  {
    (k: nat, s: Carried) => UploadChunkAt(u, env, owner, writer, k, s.0, None, s.1)
  }

  /** The steps of `Fold` for chunks `i, ..., j - 1` alone. */
  function Steps(
    u: FileUploader, env: Env, owner: Bytes, writer: Writer,
    i: nat, j: nat, current: Location, reader: Reader): Outcome<Carried>
    requires i <= j
  {
    Run(Step(u, env, owner, writer), i, j, (current, reader))
  }

  /**
   The first failure ends the fold: when chunks `i .. j - 1` upload and
   chunk `j` fails, the fold fails with chunk `j`'s error, and its effects
   are those of chunks `i .. j - 1` followed by chunk `j`'s own, with nothing
   read or uploaded after.
   */
  lemma FoldStopsAtFirstFailure(
    u: FileUploader, env: Env, owner: Bytes, writer: Writer,
    i: nat, j: nat, count: int, current: Location, reader: Reader, at: Location, rest: Reader)
    requires i <= j < count
    requires Steps(u, env, owner, writer, i, j, current, reader).result == Ok((at, rest))
    requires UploadChunkAt(u, env, owner, writer, j, at, None, rest).result.Err?
    ensures var failed := UploadChunkAt(u, env, owner, writer, j, at, None, rest);
      Fold(u, env, owner, writer, i, count, current, reader)
      == Outcome(Steps(u, env, owner, writer, i, j, current, reader).log + failed.log, Err(failed.result.error))
  {
    var step := Step(u, env, owner, writer);
    RunThenOne(step, i, j, (current, reader), (at, rest));
    assert step(j, (at, rest)) == UploadChunkAt(u, env, owner, writer, j, at, None, rest);
    RunStaysFailed(step, i, j + 1, count, (current, reader));
    FoldIsSteps(u, env, owner, writer, i, count, current, reader);
  }

  /**
   The same for a whole upload: when chunks `0 .. j - 1` upload and chunk `j`
   fails, the upload fails with that error after exactly those effects.
   */
  lemma UploadStopsAtFirstFailure(
    u: FileUploader, env: Env, owner: Bytes, writer: Writer, current: Location,
    j: nat, at: Location, rest: Reader)
    requires j < ToInt32(u.nchunks)
    requires Steps(u, env, owner, writer, 0, j, current, u.reader).result == Ok((at, rest))
    requires UploadChunkAt(u, env, owner, writer, j, at, None, rest).result.Err?
    ensures var failed := UploadChunkAt(u, env, owner, writer, j, at, None, rest);
      Upload(u, env, owner, writer, current)
      == Outcome(Steps(u, env, owner, writer, 0, j, current, u.reader).log + failed.log, Err(failed.result.error))
  {
    FoldStopsAtFirstFailure(u, env, owner, writer, 0, j, ToInt32(u.nchunks), current, u.reader, at, rest);
  }

  /** Run to the end, the steps are the fold: the same effects, and the same outcome. */
  lemma {:induction false} FoldIsSteps(
    u: FileUploader, env: Env, owner: Bytes, writer: Writer,
    i: nat, count: nat, current: Location, reader: Reader)
    requires i <= count
    ensures var steps := Steps(u, env, owner, writer, i, count, current, reader);
      var r := Fold(u, env, owner, writer, i, count, current, reader);
      && r.log == steps.log
      && (r.result.Ok? <==> steps.result.Ok?)
      && (r.result.Ok? ==> r.result.value == steps.result.value.0)
      && (r.result.Err? ==> r.result.error == steps.result.error)
    decreases count - i
  {
    if i < count {
      var step := UploadChunkAt(u, env, owner, writer, i, current, None, reader);
      assert Step(u, env, owner, writer)(i, (current, reader)) == step;
      if step.result.Ok? {
        FoldIsSteps(u, env, owner, writer, i + 1, count, step.result.value.0, step.result.value.1);
      }
    }
  }
}

=== FILE: write_back_cache.dfy ===
/**
 The write-back chunk cache of `CachingPeergosFS`: at most one cached chunk
 per path, held in an access-ordered map of bounded size whose eldest entry
 is synced and dropped when an insertion overfills it.
 */
module WriteBackCache {
  import opened Outcomes
  import opened JavaInts
  import opened ChunkAddressing
  import opened AccessOrder
  import opened CacheEntries

  /** `DEFAULT_CACHE_SIZE`. */
  const DefaultCapacity: nat := 1

  /** Fixed for the life of the filesystem: chunk size, map capacity, backing store. */
  datatype Config = Config(chunk: ChunkSize, capacity: nat, fetch: Fetch)

  /**
   The path-to-entry map, its access order (least recently used first) and
   every backing-store write the cache has issued, oldest first.
   */
  datatype Cache = Cache(entries: map<Path, CacheEntry>, order: seq<Path>, log: seq<BackingWrite>)

  /** The state after a call, and what the call returned or raised. */
  datatype Reply<+T> = Reply(cache: Cache, result: Result<T, FsError>)

  predicate OrderMatches(c: Cache)
  {
    && Distinct(c.order)
    && |c.order| == |c.entries|
    && (forall p :: p in c.order ==> p in c.entries)
    && (forall p :: p in c.entries ==> p in c.order)
  }

  predicate Valid(cfg: Config, c: Cache)
  {
    && OrderMatches(c)
    && |c.entries| <= cfg.capacity
    && forall p :: p in c.entries ==> c.entries[p].path == p && WellFormed(c.entries[p], cfg.chunk)
  }

  /** The cache as constructed: empty. */
  function Empty(cfg: Config): (c: Cache)
    ensures Valid(cfg, c) && c.entries == map[] && c.log == []
  {
    Cache(map[], [], [])
  }

  /** `entryMap.get`: in an access-ordered map a hit also marks the key most recently used. */
  function Get(c: Cache, p: Path): (r: (Cache, Option<CacheEntry>))
    requires OrderMatches(c)
    ensures OrderMatches(r.0)
    ensures r.0.entries == c.entries && r.0.log == c.log
    ensures r.1 == (if p in c.entries then Some(c.entries[p]) else None)
    ensures p in c.entries ==> r.0.order == Touch(c.order, p)
    ensures p !in c.entries ==> r.0.order == c.order
  {
    if p in c.entries then (c.(order := Touch(c.order, p)), Some(c.entries[p]))
    else (c, None)
  }

  /** `entryMap.remove`. */
  function Remove(c: Cache, p: Path): (r: Cache)
    requires OrderMatches(c)
    ensures OrderMatches(r)
    ensures p !in r.entries && r.log == c.log
    ensures forall q :: q != p ==> (q in r.entries <==> q in c.entries)
    ensures forall q :: q in r.entries ==> r.entries[q] == c.entries[q]
    ensures r.order == Without(c.order, p)
  {
    if p in c.entries then
      var entries := c.entries - {p};
      assert entries.Keys == c.entries.Keys - {p};
      Cache(entries, Without(c.order, p), c.log)
    else c
  }

  /** A cached path gets a new entry and becomes the most recently used. */
  function Replace(cfg: Config, c: Cache, p: Path, e: CacheEntry): (r: Cache)
    requires Valid(cfg, c) && p in c.entries && e.path == p && WellFormed(e, cfg.chunk)
    ensures Valid(cfg, r) && r.log == c.log
    ensures r.entries == c.entries[p := e] && r.order == Touch(c.order, p)
  {
    Cache(c.entries[p := e], Touch(c.order, p), c.log)
  }

  /** A new path goes in at the most-recently-used end; the map may now be one over capacity. */
  function Append(cfg: Config, c: Cache, p: Path, e: CacheEntry): (r: Cache)
    requires Valid(cfg, c) && p !in c.entries && e.path == p && WellFormed(e, cfg.chunk)
    ensures OrderMatches(r) && r.log == c.log
    ensures r.entries == c.entries[p := e] && |r.entries| == |c.entries| + 1
    ensures r.order == c.order + [p]
    ensures forall q :: q in r.entries ==> r.entries[q].path == q && WellFormed(r.entries[q], cfg.chunk)
  {
    var order := c.order + [p];
    assert order[|order| - 1] == p;
    assert forall i :: 0 <= i < |c.order| ==> order[i] == c.order[i];
    Cache(c.entries[p := e], order, c.log)
  }

  /** `removeEldestEntry` returning true: sync the least recently used entry, then drop it. */
  function EvictEldest(cfg: Config, c: Cache): (r: Cache)
    requires OrderMatches(c) && |c.order| > 0
    requires forall q :: q in c.entries ==> c.entries[q].path == q && WellFormed(c.entries[q], cfg.chunk)
    ensures c.order[0] in c.entries && WellFormed(c.entries[c.order[0]], cfg.chunk)
    ensures OrderMatches(r) && |r.entries| == |c.entries| - 1
    ensures forall q :: q in r.entries ==> r.entries[q].path == q && WellFormed(r.entries[q], cfg.chunk)
    ensures c.order[0] !in r.entries
    ensures forall q :: q in c.entries && q != c.order[0] ==> q in r.entries && r.entries[q] == c.entries[q]
    ensures r.log == c.log + Sync(c.entries[c.order[0]])
    ensures r.order == c.order[1..]
  {
    var eldest := c.order[0];
    assert eldest in c.order;
    assert WellFormed(c.entries[eldest], cfg.chunk);
    WithoutAt(c.order, 0);
    assert c.order[..0] + c.order[1..] == c.order[1..];
    var removed := Remove(c, eldest);
    removed.(log := c.log + Sync(c.entries[eldest]))
  }

  /**
   `entryMap.put` of a path not yet cached: append it, then `removeEldestEntry`
   sees the map one over capacity, syncs the least-recently-used entry and
   removes it. With capacity 0 that is the entry just inserted.
   */
  function Insert(cfg: Config, c: Cache, p: Path, e: CacheEntry): (r: Cache)
    requires Valid(cfg, c) && p !in c.entries && e.path == p && WellFormed(e, cfg.chunk)
    ensures Valid(cfg, r)
    ensures forall q :: q in r.entries && q != p ==> q in c.entries && r.entries[q] == c.entries[q]
    ensures |c.entries| < cfg.capacity ==> r.entries == c.entries[p := e] && r.log == c.log
    ensures cfg.capacity == 0 ==> r.entries == map[] && r.log == c.log + Sync(e)
    ensures 0 < cfg.capacity <= |c.entries| ==>
      && |c.order| > 0
      && c.order[0] in c.entries && c.order[0] !in r.entries
      && p in r.entries && r.entries[p] == e
      && (forall q :: q in c.entries && q != c.order[0] ==> q in r.entries)
      && r.log == c.log + Sync(c.entries[c.order[0]])
  {
    var appended := Append(cfg, c, p, e);
    if |appended.entries| <= cfg.capacity then appended
    else if |c.order| == 0 then
      assert appended.order[0] == p;
      EvictEldest(cfg, appended)
    else
      var eldest := c.order[0];
      assert eldest in c.order && eldest != p;
      assert appended.order[0] == eldest;
      assert p in appended.entries && appended.entries[p] == e;
      assert forall q :: q in c.entries ==> q in appended.entries;
      EvictEldest(cfg, appended)
  }

  /**
   The access order after `Insert`: the new path is the most recently used,
   and an eviction takes the head, the least recently used path.
   */
  lemma InsertOrder(cfg: Config, c: Cache, p: Path, e: CacheEntry)
    requires Valid(cfg, c) && p !in c.entries && e.path == p && WellFormed(e, cfg.chunk)
    ensures |c.entries| < cfg.capacity ==> Insert(cfg, c, p, e).order == c.order + [p]
    ensures 0 < cfg.capacity <= |c.entries| ==> Insert(cfg, c, p, e).order == c.order[1..] + [p]
    ensures cfg.capacity == 0 ==> Insert(cfg, c, p, e).order == []
  {
    var appended := Append(cfg, c, p, e);
    if |c.entries| < cfg.capacity {
    } else if |c.order| == 0 {
      assert appended.order[1..] == [];
    } else {
      assert appended.order[1..] == c.order[1..] + [p];
    }
  }

  /**
   `entryMap.put`. Replacing the entry of a cached path moves it to the
   most-recently-used end and evicts nothing; a new path is inserted.
   */
  function Put(cfg: Config, c: Cache, p: Path, e: CacheEntry): (r: Cache)
    requires Valid(cfg, c) && e.path == p && WellFormed(e, cfg.chunk)
    ensures Valid(cfg, r)
    ensures forall q :: q in r.entries && q != p ==> q in c.entries && r.entries[q] == c.entries[q]
    ensures p in c.entries ==> r.entries == c.entries[p := e] && r.log == c.log && r.order == Touch(c.order, p)
    ensures p !in c.entries ==> r == Insert(cfg, c, p, e)
    ensures p in r.entries ==> r.entries[p] == e
    ensures cfg.capacity > 0 ==> p in r.entries
  {
    if p in c.entries then Replace(cfg, c, p, e) else Insert(cfg, c, p, e)
  }

  /** Whether a request for `[offset, offset + size)` is admitted at all. */
  predicate Admitted(cfg: Config, offset: int, size: int)
  {
    ContainedInOneChunk(offset, offset + size, cfg.chunk)
  }

  /**
   Find the entry serving the chunk at `base` of path `p`, as `read` and
   `write` both do: a hit on that chunk is served from the map; an entry for
   another chunk of the path is synced first; then the chunk is loaded and
   put in the map. When loading fails the stale entry stays in the map.
   */
  function Locate(cfg: Config, c: Cache, p: Path, base: int): (r: Reply<CacheEntry>)
    requires Valid(cfg, c) && base >= 0 && base % cfg.chunk == 0
    ensures Valid(cfg, r.cache)
    ensures r.result.Err? ==> r.result.error == MissingPath || r.result.error == LoadOverflow
    ensures r.result.Ok? ==>
      var e := r.result.value;
      && e.path == p && e.offset == base && WellFormed(e, cfg.chunk)
      && (p in r.cache.entries ==> r.cache.entries[p] == e)
      && (cfg.capacity > 0 ==> p in r.cache.entries)
    ensures p in c.entries && c.entries[p].offset == base ==>
      r.result == Ok(c.entries[p]) && r.cache.entries == c.entries && r.cache.log == c.log
    ensures p in c.entries && c.entries[p].offset != base ==>
      r.cache.log == c.log + Sync(c.entries[p])
  {
    var (c1, found) := Get(c, p);
    if found.Some? && found.value.offset == base then Reply(c1, Ok(found.value))
    else
      var synced := if found.Some? then c1.(log := c1.log + Sync(found.value)) else c1;
      assert synced.entries == c.entries && synced.order == c1.order && OrderMatches(synced);
      Load(cfg, synced, p, base)
  }

  /**
   `new CacheEntry(path, base)` followed by `entryMap.put`: the chunk comes
   from the backing store; when the constructor throws nothing is put.
   */
  function Load(cfg: Config, c: Cache, p: Path, base: int): (r: Reply<CacheEntry>)
    requires Valid(cfg, c) && base >= 0 && base % cfg.chunk == 0
    ensures Valid(cfg, r.cache)
    ensures r.result == NewEntry(cfg.fetch, cfg.chunk, p, base)
    ensures r.result.Err? ==> r.cache == c && (r.result.error == MissingPath || r.result.error == LoadOverflow)
    ensures r.result.Ok? ==>
      var e := r.result.value;
      && e.path == p && e.offset == base && WellFormed(e, cfg.chunk)
      && r.cache == Put(cfg, c, p, e)
      && (p in r.cache.entries ==> r.cache.entries[p] == e)
      && (cfg.capacity > 0 ==> p in r.cache.entries)
  {
    match NewEntry(cfg.fetch, cfg.chunk, p, base)
    case Err(err) => Reply(c, Err(err))
    case Ok(loaded) => Reply(Put(cfg, c, p, loaded), Ok(loaded))
  }

  /**
   What `Locate` does when the chunk is not already cached: the entry comes
   from the backing store, a stale entry of the path is replaced in place, a
   new path is inserted (possibly evicting the eldest entry), and a cached
   path ends up most recently used.
   */
  lemma LocateFromStore(cfg: Config, c: Cache, p: Path, base: int)
    requires Valid(cfg, c) && base >= 0 && base % cfg.chunk == 0
    ensures var r := Locate(cfg, c, p, base);
      && (!(p in c.entries && c.entries[p].offset == base) ==>
            r.result == NewEntry(cfg.fetch, cfg.chunk, p, base))
      && (p in c.entries && c.entries[p].offset != base ==>
            r.cache.entries == if r.result.Ok? then c.entries[p := r.result.value] else c.entries)
      && (p in c.entries ==> r.cache.order == Touch(c.order, p))
      && (p !in c.entries && r.result.Err? ==> r.cache == c)
      && (p !in c.entries && r.result.Ok? ==> r.cache == Insert(cfg, c, p, r.result.value))
  {
    if p in c.entries {
      TouchTwice(c.order, p);
    }
  }

  /**
   `read(path, size, offset)`: reject a request that straddles a chunk
   boundary; otherwise copy the requested bytes out of the entry serving
   its chunk.
   */
  function Read(cfg: Config, c: Cache, p: Path, size: nat, offset: int): (r: Reply<seq<Byte>>)
    requires Valid(cfg, c)
    ensures Valid(cfg, r.cache)
    ensures !Admitted(cfg, offset, size) ==> r == Reply(c, Err(StraddlesBoundary))
    ensures Admitted(cfg, offset, size) ==> r.result != Err(StraddlesBoundary)
    // at a non-negative offset an admitted request never fails its bounds checks
    ensures Admitted(cfg, offset, size) && offset >= 0 ==>
      r.result != Err(OutOfChunk) && r.result != Err(IndexOutOfRange)
    ensures r.result.Ok? && offset >= 0 ==> |r.result.value| == size
    ensures r.result.Ok? && p in r.cache.entries ==> Serves(cfg, r.cache.entries[p], offset, r.result.value)
  {
    if !Admitted(cfg, offset, size) then Reply(c, Err(StraddlesBoundary))
    else ReadChunk(cfg, c, p, size, offset)
  }

  /** The entry holds the chunk of `offset`, and `bytes` sit in its buffer at the intra-chunk offset. */
  predicate Serves(cfg: Config, e: CacheEntry, offset: int, bytes: seq<Byte>)
  {
    var off := IntraChunkOffset(offset, cfg.chunk);
    && e.offset == AlignToChunkSize(offset, cfg.chunk)
    && 0 <= off && off + |bytes| <= |e.data|
    && e.data[off..off + |bytes|] == bytes
  }

  /** `read` past the containment check. */
  function ReadChunk(cfg: Config, c: Cache, p: Path, size: nat, offset: int): (r: Reply<seq<Byte>>)
    requires Valid(cfg, c) && Admitted(cfg, offset, size)
    ensures Valid(cfg, r.cache)
    ensures r.result.Err? ==> r.result.error != StraddlesBoundary
    ensures offset >= 0 ==> r.result != Err(OutOfChunk) && r.result != Err(IndexOutOfRange)
    ensures r.result.Ok? && offset >= 0 ==> |r.result.value| == size
    ensures r.result.Ok? && p in r.cache.entries ==> Serves(cfg, r.cache.entries[p], offset, r.result.value)
  {
    var base := AlignToChunkSize(offset, cfg.chunk);
    var off := IntraChunkOffset(offset, cfg.chunk);
    var len := ToInt32(size);
    InBoundsWhenContained(offset, size, cfg.chunk);
    var located := Locate(cfg, c, p, base);
    match located.result
    case Err(err) => Reply(located.cache, Err(err))
    case Ok(e) =>
      var read := EntryRead(e, off, len);
      assert read.Ok? ==> read.value == e.data[off..off + len];
      Reply(located.cache, read)
  }

  /**
   `write(path, bytes, offset)`: the same admission and chunk-switch rules
   as `read`; the bytes land in the entry's buffer at the intra-chunk offset
   and raise its high-water mark. Nothing is written to the backing store on
   this path except by a chunk switch or an eviction.
   */
  function Write(cfg: Config, c: Cache, p: Path, bytes: seq<Byte>, offset: int): (r: Reply<int>)
    requires Valid(cfg, c)
    ensures Valid(cfg, r.cache)
    ensures !Admitted(cfg, offset, |bytes|) ==> r == Reply(c, Err(StraddlesBoundary))
    ensures Admitted(cfg, offset, |bytes|) ==> r.result != Err(StraddlesBoundary)
    ensures Admitted(cfg, offset, |bytes|) && offset >= 0 ==>
      r.result != Err(OutOfChunk) && r.result != Err(IndexOutOfRange)
    ensures r.result.Ok? && offset >= 0 ==> r.result.value == |bytes|
    ensures r.result.Ok? && offset >= 0 && cfg.capacity > 0 ==>
      p in r.cache.entries && Serves(cfg, r.cache.entries[p], offset, bytes)
      && r.cache.entries[p].maxDirtyPos >= IntraChunkOffset(offset, cfg.chunk) + |bytes|
  {
    if !Admitted(cfg, offset, |bytes|) then Reply(c, Err(StraddlesBoundary))
    else WriteChunk(cfg, c, p, bytes, offset)
  }

  /** `write` past the containment check. */
  function WriteChunk(cfg: Config, c: Cache, p: Path, bytes: seq<Byte>, offset: int): (r: Reply<int>)
    requires Valid(cfg, c) && Admitted(cfg, offset, |bytes|)
    ensures Valid(cfg, r.cache)
    ensures r.result.Err? ==> r.result.error != StraddlesBoundary
    ensures offset >= 0 ==> r.result != Err(OutOfChunk) && r.result != Err(IndexOutOfRange)
    ensures r.result.Ok? && offset >= 0 ==> r.result.value == |bytes|
    ensures r.result.Ok? && offset >= 0 && cfg.capacity > 0 ==>
      p in r.cache.entries && Serves(cfg, r.cache.entries[p], offset, bytes)
      && r.cache.entries[p].maxDirtyPos >= IntraChunkOffset(offset, cfg.chunk) + |bytes|
  {
    var located := Locate(cfg, c, p, AlignToChunkSize(offset, cfg.chunk));
    match located.result
    case Err(err) => Reply(located.cache, Err(err))
    case Ok(e) => WriteLocated(cfg, located.cache, p, e, bytes, offset)
  }

  /** `write` once the chunk's entry is in hand. */
  function WriteLocated(cfg: Config, c: Cache, p: Path, e: CacheEntry, bytes: seq<Byte>, offset: int): (r: Reply<int>)
    requires Valid(cfg, c) && Admitted(cfg, offset, |bytes|)
    requires e.path == p && WellFormed(e, cfg.chunk) && e.offset == AlignToChunkSize(offset, cfg.chunk)
    requires p in c.entries ==> c.entries[p] == e
    requires cfg.capacity > 0 ==> p in c.entries
    ensures Valid(cfg, r.cache)
    ensures r.result.Err? ==> r.result.error != StraddlesBoundary
    ensures offset >= 0 ==> r.result != Err(OutOfChunk) && r.result != Err(IndexOutOfRange)
    ensures r.result.Ok? && offset >= 0 ==> r.result.value == |bytes|
    ensures r.result.Ok? && offset >= 0 && cfg.capacity > 0 ==>
      p in r.cache.entries && Serves(cfg, r.cache.entries[p], offset, bytes)
      && r.cache.entries[p].maxDirtyPos >= IntraChunkOffset(offset, cfg.chunk) + |bytes|
  {
    var off := IntraChunkOffset(offset, cfg.chunk);
    InBoundsWhenContained(offset, |bytes|, cfg.chunk);
    assert offset >= 0 ==> ToInt32(|bytes|) == |bytes|;
    WriteInto(cfg, c, p, e, off, ToInt32(|bytes|), bytes)
  }

  /**
   The entry's own `write`. The entry object outlives its place in the map:
   when the insertion evicted it (capacity 0), the bytes reach the orphaned
   object and not the map.
   */
  function WriteInto(cfg: Config, c: Cache, p: Path, e: CacheEntry, off: int, len: int, bytes: seq<Byte>): (r: Reply<int>)
    requires Valid(cfg, c) && e.path == p && WellFormed(e, cfg.chunk)
    requires p in c.entries ==> c.entries[p] == e
    requires len <= |bytes|
    ensures Valid(cfg, r.cache) && r.cache.log == c.log && r.cache.order == c.order
    ensures r.result.Ok? <==> 0 <= off && 0 <= len && off + len <= cfg.chunk
    ensures r.result.Ok? ==> r.result.value == len
    ensures forall q :: q != p ==> (q in r.cache.entries <==> q in c.entries)
    ensures forall q :: q in r.cache.entries && q != p ==> r.cache.entries[q] == c.entries[q]
    ensures p in r.cache.entries <==> p in c.entries
    ensures r.result.Ok? && p in c.entries ==> EntryWrite(e, off, len, bytes).Ok? && r.cache.entries[p] == EntryWrite(e, off, len, bytes).value
    ensures r.result.Err? ==> r.cache == c
  {
    match EntryWrite(e, off, len, bytes)
    case Err(err) => Reply(c, Err(err))
    case Ok(e') =>
      if p in c.entries then Reply(c.(entries := c.entries[p := e']), Ok(len))
      else Reply(c, Ok(len))
  }

  /**
   `flush(path)`: remove the path's entry, then sync it. The backing store's
   ENOENT is discarded, so the call reports nothing about the write.
   */
  function Flush(cfg: Config, c: Cache, p: Path): (r: Cache)
    requires Valid(cfg, c)
    ensures Valid(cfg, r)
    ensures p !in r.entries
    ensures forall q :: q != p ==> (q in r.entries <==> q in c.entries)
    ensures forall q :: q in r.entries ==> r.entries[q] == c.entries[q]
    ensures p in c.entries ==> r.log == c.log + Sync(c.entries[p])
    ensures p !in c.entries ==> r == c
    ensures r.order == Without(c.order, p)
  {
    if p in c.entries then
      var e := c.entries[p];
      var removed := Remove(c, p);
      removed.(log := removed.log + Sync(e))
    else c
  }

  /**
   `annotateAttributes`: while a path's chunk is cached, the reported size is
   the persisted size raised to the end of the dirty region if that is
   larger. The lookup marks the path most recently used.
   */
  function AnnotateSize(cfg: Config, c: Cache, p: Path, persisted: int): (r: (Cache, int))
    requires Valid(cfg, c)
    ensures Valid(cfg, r.0) && r.0.entries == c.entries && r.0.log == c.log
    ensures r.0.order == if p in c.entries then Touch(c.order, p) else c.order
    ensures r.1 >= persisted
    ensures p !in c.entries ==> r.1 == persisted
    ensures p in c.entries ==>
      var e := c.entries[p];
      && r.1 >= e.offset + e.maxDirtyPos
      && (r.1 == persisted || r.1 == e.offset + e.maxDirtyPos)
  {
    var (c1, found) := Get(c, p);
    match found
    case None => (c1, persisted)
    case Some(e) =>
      var maxSize := e.offset + e.maxDirtyPos;
      (c1, if persisted < maxSize then maxSize else persisted)
  }
}
